=== FILE: README.md ===
# Document Manager — a Dafny model of its file store

Document Manager is a WordPress plugin for sharing files between a site's administrators and
its clients. Each client has a folder under a configurable upload root. A
`file-metadata.json` file in that folder maps every stored file name to its upload time and
to who uploaded it (`admin` or `client`).

Clients work through a shortcode page. They delete their own files, upload files, and see two
listings: "Documents for you" and "Your Uploaded Documents". A separate `init` handler
streams a download. Administrators have a per-user page where they delete files one at a time
or in bulk, upload a file for the client, list the folder, and download with a per-file
nonce. Every upload goes through one validator: transport status, size, extension allow-list,
sniffed MIME type, and a zip-bomb check. Every upload also goes through an hourly rate limit
per uploading user. A settings page saves the upload root, the size limit and the allowed
extensions. The activation hook creates and protects the upload root.

The model keeps the plugin's own structure:

- `PhpBuiltins`: the PHP string functions the plugin relies on. These are `basename`,
  `dirname`, `explode`/`implode`, `trim`/`rtrim`, `strtolower`, `intval`, integer to string
  conversion, and the truthiness of strings (`""` and `"0"` are falsy).
- `Naming`: the stored name `timestamp-basename` and the display name that strips `^\d+-`.
- `Validation`: `cdm_validate_upload`, including the loop that sums the zip entries.
- `Metadata`: the decoded metadata values (legacy timestamp or record), their normalisation,
  and the newest-first order.
- `Storage`: the file system as a class. It holds directories, regular files and decoded
  metadata files, together with `wp_mkdir_p`, `wp_delete_file`, the writes, and
  `cdm_protect_upload_dir`.
- `RateLimit`: the transient counters keyed by user and hour, as a class.
- `Uploads`: what the two upload handlers share. This is the gate (counter, then validator),
  the folder creation and the record written after a move.
- `Client`: the shortcode's delete, upload and listing, and the download handler.
- `Admin`: the per-user admin page (single delete, bulk delete, upload, listing) and the
  admin download handler.
- `Settings`: the options store as a class, the settings form, the defaults, the path
  suggestion and the activation hook.

WordPress and PHP services enter as parameters:

- `sanitize_file_name` and `sanitize_text_field` are functions `string -> string`.
- `realpath` is a function `Path -> Option<Path>`.
- Nonce checks are booleans, or a predicate on the action name for the admin download.
- `get_userdata` is a lookup `int -> Option<string>`. WordPress has no user 0, so `get_userdata(0)`
  is false. The lookup is otherwise free, and `Admin.NonNumericUserIdIsNotFound` states the
  download's outcome for that case when `lookup(0)` is `None`.
- The clock is a single `now`.
- The success of `move_uploaded_file` is a boolean `moved`.
- The sniffed MIME type and the zip's entry sizes are fields of the upload.

## Model

| member | source | states |
|---|---|---|
| PhpBuiltins.Basename | includes/client-functions.php:60 | the result never contains `/` |
| PhpBuiltins.BasenameOfPlainName | includes/admin-functions.php:214 | a name without `/` is returned unchanged |
| PhpBuiltins.BasenameIdempotent | includes/admin-functions.php:76-77 | applying `basename` to its own result changes nothing, so re-basenaming a sanitized name is harmless |
| PhpBuiltins.Dirname | document-manager.php:25 | a non-empty path has a non-empty parent and the empty path has the empty parent |
| PhpBuiltins.DirnameIgnoresTrailingSlashes | document-manager.php:25 | trailing slashes do not change `dirname`: the parent of `p/` is the parent of `p` |
| PhpBuiltins.DirnameOfDirectory | document-manager.php:25 | for a directory written with its trailing slash, `parent/leaf/`, `dirname` is `parent` |
| PhpBuiltins.RTrimOneSlash | document-manager.php:25 | `rtrim` of `t/` by `/` is `t` when `t` does not end in `/` |
| PhpBuiltins.DirnameAt | includes/settings.php:43 | for a path whose last `/` sits at index i, with no trailing slash and no doubled separator, `dirname` is the prefix before i |
| PhpBuiltins.RTrim | includes/client-functions.php:232 | the result is a prefix of the input, does not end in a cut character, and only cut characters were removed |
| PhpBuiltins.Trim | document-manager.php:161 | the result is a contiguous middle of the input with only default trim characters removed before and after it, and it neither starts nor ends with one of them |
| PhpBuiltins.TrimBy | document-manager.php:161 | `rtrim` then `ltrim` by one set leaves a middle of the input whose removed ends are all in the set and whose own ends are not |
| PhpBuiltins.LTrimIsSuffix | document-manager.php:161 | `ltrim` leaves a tail of its input |
| PhpBuiltins.LastIndexOf | document-manager.php:176 | the index found holds the character and no later index does; -1 means absent |
| PhpBuiltins.Explode | document-manager.php:161 | `explode` yields at least one piece and no piece contains the separator |
| PhpBuiltins.ImplodeExplode | document-manager.php:161 | joining the pieces of `explode` with the same separator gives back the original string |
| PhpBuiltins.AfterLastLength | document-manager.php:176 | the text after the last occurrence of a character starts right after `strrpos`'s index (the whole string when absent) |
| PhpBuiltins.ToLower | document-manager.php:176 | `strtolower` keeps the length and lowers each ASCII letter in place |
| PhpBuiltins.DecimalDigits | includes/client-functions.php:95 | a timestamp prints as a non-empty run of digits |
| PhpBuiltins.LeadingDigitCount | includes/client-functions.php:168 | the count is the length of the longest all-digit prefix |
| PhpBuiltins.IntValOfDecimal | includes/settings.php:26 | `intval` of a number's decimal text is that number |
| PhpBuiltins.DigitRunOfDecimal | includes/settings.php:26 | the digit run of a number's decimal text has that number's value |
| Naming.StoredName | includes/client-functions.php:93-95 | `time() . "-" . basename(name)` contains no `/` and starts with a digits-dash prefix |
| Naming.DisplayName | includes/client-functions.php:168 | `preg_replace('/^\d+-/', '', name)` is a suffix of the name |
| Naming.DisplayNameUnchangedIff | includes/client-functions.php:194 | the display name equals the stored name exactly when the name has no digits-dash prefix |
| Naming.StripsOnePrefix | includes/client-functions.php:234 | for any non-empty digit run d, the display name of `d-rest` is `rest` |
| Naming.DisplayOfStoredName | includes/client-functions.php:93-95 | stripping the prefix from a stored name gives back `basename` of the uploaded name, for every timestamp |
| Naming.StripIsNotRepeated | includes/client-functions.php:168 | only one prefix is stripped: `12-34-a.pdf` displays as `34-a.pdf` |
| Validation.AllowedExtensions | document-manager.php:161 | the allow-list has one entry per comma-separated piece, each trimmed |
| Validation.Extension | document-manager.php:176 | the extension contains neither `.` nor `/` |
| Validation.ExtensionIsTextAfterLastDot | document-manager.php:176 | for every name: without a dot in its basename the extension is empty; otherwise it is the lower-cased text after the basename's last dot |
| Validation.FirstFailure | document-manager.php:163-221 | the error is the first failing check in source order (transport, size, type, MIME, zip), with each iff; it carries the limit, the extension and allow-list, or the MIME type the message prints |
| Validation.TotalPrefixMonotone | document-manager.php:217 | with non-negative entry sizes the running sum never decreases |
| Validation.TotalStep | document-manager.php:217 | each loop turn adds exactly the next entry's size to the running sum |
| Validation.ScanZipEntries | document-manager.php:213-222 | the loop accepts iff the total of all entry sizes is at most 512 MiB; on rejection it stopped at the first entry whose running sum exceeds the limit |
| Validation.CheckZip | document-manager.php:210-225 | the zip check passes iff it is skipped (extension not exactly `zip`, or the archive does not open) or the total stays within 512 MiB |
| Validation.ValidateUpload | document-manager.php:156-228 | the verdict is valid iff every check passes; otherwise it is exactly the first failing check's error |
| Validation.SizeTestIsMegabyteTest | document-manager.php:169-170 | `size / 1024 / 1024 > max` holds iff `size > max * 1048576` |
| Validation.ExactLimitPasses | document-manager.php:169-170 | a file of exactly the limit in MiB passes and one byte more fails |
| Validation.ExtensionIsLastDotLowered | document-manager.php:176 | the extension is the lower-cased text after the last dot: `a.tar.PDF` gives `pdf` |
| Validation.AllowListEntriesAreTrimmed | document-manager.php:161 | a space after a comma in the allow-list does not hide the entry: `doc` is allowed by `pdf, doc` |
| Metadata.Normalize | includes/client-functions.php:133-134 | the entry keeps the stored name and the timestamp of the metadata value |
| Metadata.NormalizeEncode | includes/client-functions.php:101-104 | a record written by an upload reads back as the entry it was written from |
| Metadata.MissingRoleIsClient | includes/client-functions.php:133-134 | a legacy scalar timestamp and a record without `uploaded_by` both read as uploaded by `client` |
| Metadata.InsertByTime | includes/client-functions.php:153 | inserting into a newest-first list keeps it newest-first and adds exactly that entry |
| Metadata.PrependNewest | includes/client-functions.php:153 | an entry at least as new as the head of a newest-first list can be put in front |
| Metadata.TailNewestFirst | includes/client-functions.php:153 | the tail of a newest-first list is newest-first |
| Metadata.SortNewestFirst | includes/client-functions.php:153-154 | the `usort` result is ordered by non-increasing timestamp and is a permutation of its input |
| Storage.TrailingSlashIt | includes/client-functions.php:39 | the result ends in `/` |
| Storage.UserDir | includes/client-functions.php:39 | the user folder starts with `trailingslashit(CDM_UPLOAD_ROOT)` |
| Storage.Ancestors | includes/client-functions.php:41 | `wp_mkdir_p` creates the path itself |
| Storage.WithProtection | document-manager.php:125-148 | protection never changes an existing file and adds at most `.htaccess` and `index.php`; a missing directory leaves everything unchanged; an existing directory ends up with both files, with the fixed contents wherever they were absent |
| Storage.ProtectIdempotent | document-manager.php:120-148 | protecting a directory twice equals protecting it once |
| Storage.FileSystem.ProtectUploadDir | document-manager.php:125-148 | the files become the protected file map; directories and metadata files do not change |
| Storage.FileSystem.Remove | includes/admin-functions.php:61 | `wp_delete_file` removes the regular or metadata file at the path and leaves directories |
| Storage.FileSystem.PlaceFile | includes/client-functions.php:99 | `move_uploaded_file` puts the content at the target and changes nothing else |
| Storage.FileSystem.WriteMetadata | includes/client-functions.php:105 | writing the folder's metadata replaces exactly that file, and it reads back as written |
| Storage.FileSystem.MakeDirs | includes/client-functions.php:41 | `wp_mkdir_p` adds the directory and its ancestors and nothing else |
| RateLimit.KeyFor | includes/client-functions.php:81 | the key holds the user ID and the hour bucket that contains `now` |
| RateLimit.SameHourSameKey | includes/client-functions.php:81 | two times share a key iff they fall in the same hour bucket; times an hour or more apart never share one |
| RateLimit.Counters.HasRoom | includes/client-functions.php:82-83 | an upload may start iff the counter (0 when missing) is below 20; with every bucket bounded, a refused counter is exactly 20 |
| RateLimit.BumpKeepsLimit | includes/client-functions.php:82-100 | bumping a counter that had room keeps every bucket within 20 |
| RateLimit.Counters.Bump | includes/client-functions.php:100 | the key's counter rises by one, every other counter stays, and the limit of 20 per bucket is kept when there was room |
| Uploads.GateOutcome | includes/client-functions.php:83-109 | an upload is stored iff the counter has room, the file is acceptable and the move succeeds; the counter refusal comes first, then the validator's |
| Uploads.StoredPath | includes/client-functions.php:96 | the target lies inside the user folder |
| Uploads.StoredPathIsNotMetadata | includes/client-functions.php:95-96 | an upload never lands on the folder's `file-metadata.json` |
| Uploads.DirsAfterEnsure | includes/client-functions.php:40-43 | the user folder exists afterwards and no directory is lost |
| Uploads.EnsureUserDir | includes/client-functions.php:40-43 | a missing user folder is created and the root protected; an existing path is left alone |
| Uploads.Admit | includes/client-functions.php:82-91 | the gate lets a file through iff the counter has room and the validator accepts; otherwise it reports the rate limit or the validator's first error |
| Uploads.RecordUpload | includes/client-functions.php:99-105 | after a move: the file is in place, the counter is bumped, and the metadata gains the stored name with the time and role and is written back |
| Uploads.CountAndWrite | includes/client-functions.php:100-105 | the counter is bumped and the folder's metadata replaced; no regular file changes |
| Client.ClientUserDir | includes/client-functions.php:37-39 | the client's folder lies under `trailingslashit(CDM_UPLOAD_ROOT)` |
| Client.LoadMetadata | includes/client-functions.php:48-51 | a missing metadata file gives the empty map; a present one gives exactly its stored map (an undecodable one is held as empty) |
| Client.RequestedName | includes/client-functions.php:60 | the requested name contains no `/` |
| Client.ClientDelete | includes/client-functions.php:56-74 | nothing happens without a non-empty POST name; a bad nonce or a failed guard changes nothing; on success the canonical path is unlinked and the key dropped, with the metadata rewritten only if the key was present |
| Client.RemoveDocument | includes/client-functions.php:64-68 | the file is unlinked and the metadata written back only when the name was a key |
| Client.ClientUpload | includes/client-functions.php:77-113 | no upload without a POSTed, named file; a bad nonce refuses; otherwise the outcome is the gate's. Nothing changes unless a file is stored. A stored upload bumps exactly the user's hour counter, places the file at `timestamp-basename` in the folder and adds a `client` record to the metadata, which is written back; the counters stay within 20 per hour |
| Client.AdmitAndStore | includes/client-functions.php:81-111 | the outcome is the gate's. Refusals and failed moves change nothing. A stored upload bumps exactly that counter, places the file at `ts-basename` and records it as `client` in the metadata, which is written back |
| Client.StoreUpload | includes/client-functions.php:93-109 | a failed move changes nothing; a successful one records the stored name as a `client` upload and bumps the counter |
| Client.ListingPartition | includes/client-functions.php:136-149 | an entry is listed iff its key is in the metadata and its file exists; it goes to the admin list iff `uploaded_by` is exactly `admin` and never to both lists |
| Client.SharedAmongStep | includes/client-functions.php:131-150 | one more metadata key adds its entry to its list exactly when the file exists and the role matches |
| Client.DeleteThenUpload | includes/client-functions.php:56-113 | the delete and the upload steps share one in-memory metadata map: the result is the loaded map without the deleted key (only on a delete), plus the `client` record of a stored upload. The regular files lose the delete's canonical target and gain the stored upload; the metadata files lose the target, get the folder's map rewritten when the deleted name was a key, and get the final map written after a stored upload. A stored upload bumps exactly the user's hour counter; no directory changes |
| Client.ClientListing | includes/client-functions.php:128-154 | both lists are newest-first and are permutations of the admin and client partitions of the existing entries |
| Client.ClientDownload | includes/client-functions.php:216-246 | a file is served iff the user is logged in, the request is non-empty and the canonical path exists strictly inside the canonical user folder; the attachment name is the display name |
| Client.ClientShortcode | includes/client-functions.php:25-154 | a visitor who is not logged in changes nothing. Otherwise the user folder exists afterwards (with the root's guard files when it was created); the metadata is the map read once, without the deleted key and with the stored upload's `client` record; the regular and metadata files are those of the folder step, then the delete, then the upload; both listings are newest-first permutations of the admin and client shares of that metadata; only a stored upload bumps the user's hour counter, by one, and the counters stay within 20 per hour |
| Client.StrictlyInsideImpliesPrefix | includes/client-functions.php:232 | the download guard implies the delete guard's plain prefix test |
| Client.DeletePrefixAdmitsFolderItself | includes/client-functions.php:63 | the delete guard's prefix test accepts the user folder itself, which the download guard rejects |
| Client.DeleteGuardAdmitsSiblingFolder | includes/client-functions.php:61-63 | a link in `alice` resolving into `alice2` passes the delete guard but not the download guard, since no `/` follows the prefix |
| Admin.ResolvePage | includes/admin-functions.php:35-52 | the page targets a folder iff the viewer can manage options, `user_id` has a non-zero `intval` and the user exists; the folder is exactly that user's sanitized login under the upload root; a non-zero ID without a user gives `UserNotFound` |
| Admin.AdminPath | includes/admin-functions.php:57-58 | the admin's target is exactly one level inside the user folder |
| Admin.AdminDelete | includes/admin-functions.php:56-69 | a file is deleted iff the form, a valid nonce and an existing path are there; the metadata key is dropped and written only when present |
| Admin.BulkNames | includes/admin-functions.php:76-77 | each selected name becomes `basename(sanitize_file_name(name))` |
| Admin.VisitCountCountsDistinct | includes/admin-functions.php:76-87 | with plain files the deleted count is the number of distinct selected names whose file existed |
| Admin.ExistingAfterRemoval | includes/admin-functions.php:80-86 | unlinking one name's path removes exactly that name from the names whose file exists |
| Admin.RepeatedNameCountsOnce | includes/admin-functions.php:80-86 | a name selected twice is counted once |
| Admin.VisitCountPositive | includes/admin-functions.php:89 | the count is positive iff some selected path existed, which is when the metadata is written |
| Admin.VisitStep | includes/admin-functions.php:80-86 | one visit adds one to the count iff its path still exists, and records its name as existing |
| Admin.VisitInvariant | includes/admin-functions.php:76-87 | one visit keeps the loop's account of removed paths, removed keys and the count still to come |
| Admin.VisitName | includes/admin-functions.php:77-86 | a visit counts iff the path exists, unlinks it, and drops its key from the in-memory metadata |
| Admin.VisitAll | includes/admin-functions.php:73-87 | after the loop, every selected path is gone. The count is the number of visits that found their path. The in-memory metadata lost exactly the keys of names whose path existed |
| Admin.DeleteNames | includes/admin-functions.php:73-93 | as `VisitAll`, then the metadata file is rewritten only when the count is positive |
| Admin.BulkDelete | includes/admin-functions.php:72-94 | nothing happens without the form, an array of names and the nonce; otherwise the outcome is `DeleteNames`' |
| Admin.PlaceForClient | includes/admin-functions.php:111-134 | the folder is created (and the root protected) if missing before the move; a successful move bumps the counter and adds an `admin` record to the metadata read from disk |
| Admin.AdminAdmitAndStore | includes/admin-functions.php:100-135 | the outcome is the gate's; refusals change nothing; the folder is created only once the file is accepted; a stored upload is recorded as `admin` |
| Admin.AdminUpload | includes/admin-functions.php:98-138 | the gate is keyed on the acting admin's ID, not the client's. The counter rises by one only on a stored upload. Without the form, file, nonce and name nothing changes. A stored upload creates the folder if missing (protecting the root), places the file and adds an `admin` record to the metadata read from disk |
| Admin.AllEntriesStep | includes/admin-functions.php:168-171 | each metadata key adds exactly its normalised entry to the table |
| Admin.AdminListing | includes/admin-functions.php:152-171 | no table without the folder; otherwise one row per metadata key, normalised, without existence filter or sorting |
| Admin.AdminDownload | includes/admin-functions.php:209-240 | a non-admin or empty request is ignored and a bad per-file nonce refuses. Past those guards, an unknown user gives user-not-found; otherwise the file at `root/login/basename(name)` is served iff it exists, and file-not-found is given iff it does not. The attachment keeps the full stored name |
| Admin.NonNumericUserIdIsNotFound | includes/admin-functions.php:219-224 | with `get_userdata(0)` false, a non-numeric `user_id` such as `abc` reads as 0 and ends in user-not-found once the nonce passes |
| Admin.AdminDownloadStaysOneLevelDown | includes/admin-functions.php:214-227 | a served path is always exactly one level inside the user's folder |
| Admin.BasenameKeepsParentReference | includes/admin-functions.php:214 | `basename` keeps `..` as it is |
| Settings.ClampSize | includes/settings.php:27 | `max(1, min(100, x))` lies in [1, 100]; an in-range value is kept, below becomes 1 and above becomes 100 |
| Settings.ClampIdempotent | includes/settings.php:27 | clamping twice equals clamping once |
| Settings.SavedSize | includes/settings.php:26-27 | the saved size is an integer in [1, 100] |
| Settings.SavedSizeReadsBack | includes/settings.php:26-27 | the saved size reads back through `intval` as the clamped value, both as the integer and as its decimal text |
| Settings.DefaultUploadRoot | includes/settings.php:36 | the default root ends in `/client-docs` |
| Settings.DefaultRootIsSiblingOfInstall | includes/settings.php:36 | with `ABSPATH` written as `parent/leaf/`, the default root is `parent/client-docs` |
| Settings.DefaultRootForVarWwwHtml | includes/settings.php:36 | WordPress in `/var/www/html/` gets `/var/www/client-docs` |
| Settings.UploadRoot | includes/settings.php:36 | a missing option gives `dirname(ABSPATH) . '/client-docs'` and a saved text is used as it is |
| Settings.MaxFileSize | includes/settings.php:37 | a missing option gives 50 |
| Settings.AllowedTypes | includes/settings.php:38 | a missing option gives the 13-extension default list, and a saved text is used as it is |
| Settings.CurrentPolicy | document-manager.php:159-160 | the validator's policy is the size and types read from the options |
| Settings.SavedSizeIsPolicy | includes/settings.php:26-27 | once a size is saved, the validator's limit is its clamped `intval`, in [1, 100] |
| Settings.SuggestedPath | includes/settings.php:42-44 | an empty or `"0"` web root gives no suggestion; with a truthy parent the suggestion is `dirname(doc_root) . '/client-docs'`, and with a falsy parent there is none |
| Settings.SuggestionSkipsFalsyParent | includes/settings.php:43-44 | a web root under a folder named `0` gets no suggestion, because `"0"` is falsy |
| Settings.SuggestionForWebRoot | includes/settings.php:43-44 | `/srv/www` gets the suggestion `/srv/client-docs` |
| Settings.Options.SaveSettings | includes/settings.php:16-34 | nothing is written for a user without `manage_options` or without the nonce. Each submitted field updates its option: the path and types through the text sanitizer, the size as its clamped `intval`. Absent fields and all other options are unchanged |
| Settings.Options.SaveText | includes/settings.php:21-24 | a present field sets its option to the sanitized text; no other option changes |
| Settings.Options.SaveSize | includes/settings.php:25-28 | a present size field sets the size option to the clamped `intval`; no other option changes |
| Settings.Activate | document-manager.php:23-30 | the configured root is created with its ancestors if missing and then protected; it and its two guard files exist afterwards |

## Left out

- HTML output, menus, row-action links, inline JavaScript, asset loading, translations and
  the privacy text. They carry no decisions.
- WordPress services as described above. Nonce checks, capability checks, sanitizers,
  `realpath`, `get_userdata` and the upload move are parameters and are not modelled themselves.
- MIME sniffing with libmagic and zip parsing with ZipArchive. The sniffed type and the entry
  sizes are inputs. An archive that does not open is an absent list of sizes, and so is a PHP
  without the ZipArchive class (`class_exists('ZipArchive')` false), which skips the check the
  same way.
- JSON encoding and decoding. The metadata file is kept decoded. A missing or undecodable
  file reads as the empty map on both sides; the admin side's `null` behaves the same in
  every use the plugin makes of it.
- Concurrency. The read-then-write of the transient counter and of the metadata file is
  modelled as sequential.
- Floating point and `floor`. The size test is the exact integer comparison it is equivalent
  to, and the hour bucket is natural-number division.
- PHP's loose `in_array` comparison. Membership is string equality.
- `gmdate` formatting, `readfile` and the download headers, and transient expiry after an
  hour. Buckets of past hours are simply never read again.
- uninstall.php. It is option and transient clean-up against the database.
- The clock is read as one `now`. The source calls `time()` twice (rate key and stored name),
  so an upload at an hour boundary may be counted in the previous hour's bucket.
- `usort` order among equal timestamps. The model's listing is one newest-first permutation
  and does not fix the tie order.
- Admin.AdminListing: the source prints the rows in the metadata file's key order. The model
  states the rows as a multiset, so the order of the table is not fixed.
- Failed writes (`file_put_contents`, `wp_mkdir_p`). Every write succeeds; only the move's
  success is a parameter.
- Path normalisation beyond `realpath`. Paths are strings, and `..` or doubled slashes get no
  meaning except through the `realpath` parameter.
- PhpBuiltins.IntVal: reads optional leading whitespace, a sign and a run of decimal digits.
  Integer overflow saturation and other prefixes (`0x`, exponents) are not modelled.
- Settings options hold the integer `update_option` was given, or text. A reload from the
  database turns the integer into its decimal text, and `Settings.SavedSizeReadsBack` shows
  both read the same.

=== FILE: admin.dfy ===
/**
 * The admin side: the hidden "Client Documents" page for one user (single delete, bulk
 * delete, upload for the client, the table of all metadata entries) and the `admin_init`
 * download handler. The admin paths are built from `basename` of the sanitized name alone;
 * no canonical-path check is made.
 */
module Admin {
  import opened Wrappers
  import opened PhpBuiltins
  import opened Naming
  import opened Validation
  import opened Metadata
  import opened Storage
  import opened RateLimit
  import opened Uploads

  /** What the page acts on, once the capability and the `user_id` parameter are checked. */
  datatype PageTarget = AccessDenied | NoUserSelected | UserNotFound | Target(userDir: Path)

  /**
   * `current_user_can('manage_options')`, then `intval($_GET['user_id'])` (0 when absent)
   * must be non-zero and name an existing user; the folder is that user's sanitized login.
   */
  function ResolvePage(canManage: bool, userIdParam: Option<string>, lookup: int -> Option<string>,
                       root: Path, sanitize: string -> string): (t: PageTarget)
    ensures t.Target? <==>
      canManage && userIdParam.Some? && IntVal(userIdParam.value) != 0 && lookup(IntVal(userIdParam.value)).Some?
    ensures t.Target? ==> StartsWith(t.userDir, TrailingSlashIt(root))
    ensures !canManage ==> t == AccessDenied
    ensures canManage && (userIdParam.None? || IntVal(userIdParam.value) == 0) ==> t == NoUserSelected
    ensures canManage && userIdParam.Some? && IntVal(userIdParam.value) != 0 && lookup(IntVal(userIdParam.value)).None? ==>
      t == UserNotFound
    ensures t.Target? ==> t.userDir == UserDir(root, sanitize(lookup(IntVal(userIdParam.value)).value))
  {
    if !canManage then AccessDenied
    else
      var userId := if userIdParam.Some? then IntVal(userIdParam.value) else 0;
      if userId == 0 then NoUserSelected
      else
        var login := lookup(userId);
        if login.None? then UserNotFound else Target(UserDir(root, sanitize(login.value)))
  }

  /** `$user_dir . '/' . basename(sanitize_file_name($name))`. */
  function AdminPath(userDir: Path, raw: string, sanitize: string -> string): (p: Path)
    ensures StartsWith(p, userDir + "/") && '/' !in p[|userDir| + 1..]
  {
    var p := Join(userDir, Basename(sanitize(raw)));
    assert p[..|userDir + "/"|] == userDir + "/";
    assert p[|userDir| + 1..] == Basename(sanitize(raw));
    p
  }

  /** The metadata as the page reads it from disk after `path` is unlinked. */
  function MetadataAfterRemoval(metas: map<Path, MetadataMap>, userDir: Path, path: Path): MetadataMap {
    var m := metas - {path};
    if MetadataPath(userDir) in m then m[MetadataPath(userDir)] else map[]
  }

  // ---------------------------------------------------------------- single delete

  /**
   * The single delete: when the name's path exists it is unlinked; the metadata is then
   * re-read, and its key dropped and the file rewritten only when the key is present.
   */
  method AdminDelete(fs: FileSystem, userDir: Path, submitted: bool, raw: string, nonceOk: bool, sanitize: string -> string)
    returns (deleted: bool)
    modifies fs
    ensures deleted <==> submitted && nonceOk && old(fs.Exists(AdminPath(userDir, raw, sanitize)))
    ensures !deleted ==> fs.dirs == old(fs.dirs) && fs.files == old(fs.files) && fs.metadataFiles == old(fs.metadataFiles)
    ensures deleted ==>
      var path := AdminPath(userDir, raw, sanitize);
      var name := Basename(sanitize(raw));
      var m := MetadataAfterRemoval(old(fs.metadataFiles), userDir, path);
      && fs.dirs == old(fs.dirs)
      && fs.files == old(fs.files) - {path}
      && fs.metadataFiles == (if name in m then (old(fs.metadataFiles) - {path})[MetadataPath(userDir) := m - {name}]
                              else old(fs.metadataFiles) - {path})
  {
    deleted := false;
    if !(submitted && nonceOk) {
      return;
    }
    var name := Basename(sanitize(raw));
    var path := AdminPath(userDir, raw, sanitize);
    if fs.Exists(path) {
      fs.Remove(path);
      var metadata := fs.MetadataOf(userDir);
      if name in metadata {
        fs.WriteMetadata(userDir, metadata - {name});
      }
      deleted := true;
    }
  }

  // ---------------------------------------------------------------- bulk delete

  /** `basename` of each entry of `array_map('sanitize_file_name', $_POST['cdm_files'])`. */
  function BulkNames(raw: seq<string>, sanitize: string -> string): (names: seq<string>)
    ensures |names| == |raw|
    ensures forall i :: 0 <= i < |raw| ==> names[i] == Basename(sanitize(raw[i]))
  {
    seq(|raw|, i requires 0 <= i < |raw| => Basename(sanitize(raw[i])))
  }

  /** The paths the loop visits. */
  function BulkPaths(userDir: Path, names: seq<string>): set<Path> {
    set n | n in names :: Join(userDir, n)
  }

  /**
   * `$deleted_count`: one for every visit to a path that exists at that moment — a directory
   * each time, a file only the first time, since the visit unlinks it.
   */
  function VisitCount(userDir: Path, names: seq<string>, dirs: set<Path>, present: set<Path>): nat
  {
    if names == [] then 0
    else
      var p := Join(userDir, names[0]);
      if p in dirs || p in present then 1 + VisitCount(userDir, names[1..], dirs, present - {p})
      else VisitCount(userDir, names[1..], dirs, present)
  }

  /** The names whose path existed before the loop: exactly these lose their metadata entry. */
  function ExistingNames(userDir: Path, names: seq<string>, dirs: set<Path>, present: set<Path>): set<string> {
    set n | n in names && (Join(userDir, n) in dirs || Join(userDir, n) in present)
  }

  /** With no directories among them, the count is the number of distinct names whose file existed. */
  lemma {:induction false} VisitCountCountsDistinct(userDir: Path, names: seq<string>, present: set<Path>)
    ensures VisitCount(userDir, names, {}, present) == |ExistingNames(userDir, names, {}, present)|
    decreases |names|
  {
    if names != [] {
      var n := names[0];
      var p := Join(userDir, n);
      var rest := names[1..];
      assert names == [n] + rest;
      var whole := ExistingNames(userDir, names, {}, present);
      if p in present {
        VisitCountCountsDistinct(userDir, rest, present - {p});
        ExistingAfterRemoval(userDir, rest, present, n);
        var tail := ExistingNames(userDir, rest, {}, present - {p});
        assert whole == {n} + tail;
        assert n !in tail;
      } else {
        VisitCountCountsDistinct(userDir, rest, present);
        assert whole == ExistingNames(userDir, rest, {}, present);
      }
    }
  }

  /** Once a name's path is unlinked, that name, and only it, drops out of the existing names. */
  lemma ExistingAfterRemoval(userDir: Path, names: seq<string>, present: set<Path>, n: string)
    ensures ExistingNames(userDir, names, {}, present - {Join(userDir, n)}) == ExistingNames(userDir, names, {}, present) - {n}
  {
    var p := Join(userDir, n);
    forall m | m in names
      ensures Join(userDir, m) in present - {p} <==> Join(userDir, m) in present && m != n
    {
      if Join(userDir, m) == p { JoinInjective(userDir, m, n); }
    }
  }

  /** A name selected twice is counted once. */
  lemma RepeatedNameCountsOnce(userDir: Path)
    ensures VisitCount(userDir, ["a.pdf", "a.pdf"], {}, {Join(userDir, "a.pdf")}) == 1
  {
    var p := Join(userDir, "a.pdf");
    var once: seq<string> := ["a.pdf"];
    assert ["a.pdf", "a.pdf"][1..] == once;
    assert once[1..] == [];
    assert VisitCount(userDir, once, {}, {}) == 0;
    assert {p} - {p} == {};
  }

  /** Something is counted iff some visited path existed before the loop. */
  lemma {:induction false} VisitCountPositive(userDir: Path, names: seq<string>, dirs: set<Path>, present: set<Path>)
    ensures VisitCount(userDir, names, dirs, present) > 0 <==> ExistingNames(userDir, names, dirs, present) != {}
    decreases |names|
  {
    if names != [] {
      var n := names[0];
      var p := Join(userDir, n);
      var rest := names[1..];
      assert names == [n] + rest;
      if p in dirs || p in present {
        assert n in ExistingNames(userDir, names, dirs, present);
      } else {
        VisitCountPositive(userDir, rest, dirs, present);
        assert ExistingNames(userDir, names, dirs, present) == ExistingNames(userDir, rest, dirs, present);
      }
    }
  }

  /** Visiting one more name: how the remaining count and the removed names move. */
  lemma {:induction false} VisitStep(userDir: Path, names: seq<string>, i: nat, dirs: set<Path>, present0: set<Path>, present: set<Path>)
    requires i < |names|
    requires present == present0 - BulkPaths(userDir, names[..i])
    ensures var p := Join(userDir, names[i]);
      && VisitCount(userDir, names[i..], dirs, present) ==
           (if p in dirs || p in present then 1 else 0) + VisitCount(userDir, names[i + 1..], dirs, present - {p})
      && BulkPaths(userDir, names[..i + 1]) == BulkPaths(userDir, names[..i]) + {p}
      && (p in dirs || p in present ==> ExistingNames(userDir, names[..i + 1], dirs, present0) == ExistingNames(userDir, names[..i], dirs, present0) + {names[i]})
      && (!(p in dirs || p in present) ==> ExistingNames(userDir, names[..i + 1], dirs, present0) == ExistingNames(userDir, names[..i], dirs, present0) + (if p in present0 then {names[i]} else {}))
      && (p in present0 && p !in present ==> names[i] in ExistingNames(userDir, names[..i], dirs, present0))
  {
    var p := Join(userDir, names[i]);
    assert names[..i + 1] == names[..i] + [names[i]];
    assert names[i..][1..] == names[i + 1..];
    assert !(p in dirs || p in present) ==> present - {p} == present;
    if p in present0 && p !in present {
      var m :| m in names[..i] && Join(userDir, m) == p;
      JoinInjective(userDir, m, names[i]);
    }
  }

  /**
   * The bulk delete: when the form, an array of names and the nonce are there, visit each
   * selected name (see `DeleteNames`); otherwise nothing happens.
   */
  method BulkDelete(fs: FileSystem, userDir: Path, submitted: bool, selection: Option<seq<string>>, nonceOk: bool,
                    sanitize: string -> string)
    returns (deleted: nat)
    modifies fs
    ensures !(submitted && selection.Some? && nonceOk) ==>
      deleted == 0 && fs.dirs == old(fs.dirs) && fs.files == old(fs.files) && fs.metadataFiles == old(fs.metadataFiles)
    ensures submitted && selection.Some? && nonceOk ==>
      var names := BulkNames(selection.value, sanitize);
      var present := old(fs.files.Keys + fs.metadataFiles.Keys);
      var metas := old(fs.metadataFiles) - BulkPaths(userDir, names);
      && deleted == VisitCount(userDir, names, old(fs.dirs), present)
      && fs.dirs == old(fs.dirs)
      && fs.files == old(fs.files) - BulkPaths(userDir, names)
      && fs.metadataFiles ==
           (if deleted > 0
            then metas[MetadataPath(userDir) := old(fs.MetadataOf(userDir)) - ExistingNames(userDir, names, old(fs.dirs), present)]
            else metas)
  {
    deleted := 0;
    if !(submitted && selection.Some? && nonceOk) {
      return;
    }
    deleted := DeleteNames(fs, userDir, BulkNames(selection.value, sanitize));
  }

  /**
   * The bulk-delete loop: unlink each name's path when it exists and drop its key from the
   * metadata read before the loop; write that metadata back only if something was counted.
   */
  method DeleteNames(fs: FileSystem, userDir: Path, names: seq<string>) returns (deleted: nat)
    modifies fs
    ensures
      var present := old(fs.files.Keys + fs.metadataFiles.Keys);
      var metas := old(fs.metadataFiles) - BulkPaths(userDir, names);
      && deleted == VisitCount(userDir, names, old(fs.dirs), present)
      && fs.dirs == old(fs.dirs)
      && fs.files == old(fs.files) - BulkPaths(userDir, names)
      && fs.metadataFiles ==
           (if deleted > 0
            then metas[MetadataPath(userDir) := old(fs.MetadataOf(userDir)) - ExistingNames(userDir, names, old(fs.dirs), present)]
            else metas)
  {
    var metadata;
    deleted, metadata := VisitAll(fs, userDir, names);
    if deleted > 0 {
      fs.WriteMetadata(userDir, metadata);
    }
  }

  /** The loop itself: each visit as `VisitName` does it, with the metadata kept in memory. */
  method VisitAll(fs: FileSystem, userDir: Path, names: seq<string>) returns (deleted: nat, metadata: MetadataMap)
    modifies fs
    ensures
      var present := old(fs.files.Keys + fs.metadataFiles.Keys);
      && deleted == VisitCount(userDir, names, old(fs.dirs), present)
      && metadata == old(fs.MetadataOf(userDir)) - ExistingNames(userDir, names, old(fs.dirs), present)
      && fs.dirs == old(fs.dirs)
      && fs.files == old(fs.files) - BulkPaths(userDir, names)
      && fs.metadataFiles == old(fs.metadataFiles) - BulkPaths(userDir, names)
  {
    deleted := 0;
    ghost var dirs := fs.dirs;
    ghost var files0 := fs.files;
    ghost var metas0 := fs.metadataFiles;
    ghost var present0 := fs.files.Keys + fs.metadataFiles.Keys;
    metadata := fs.MetadataOf(userDir);
    ghost var metadata0 := metadata;
    var i := 0;
    while i < |names|
      invariant 0 <= i <= |names|
      invariant fs.dirs == dirs
      invariant fs.files == files0 - BulkPaths(userDir, names[..i])
      invariant fs.metadataFiles == metas0 - BulkPaths(userDir, names[..i])
      invariant deleted + VisitCount(userDir, names[i..], dirs, fs.files.Keys + fs.metadataFiles.Keys) == VisitCount(userDir, names, dirs, present0)
      invariant metadata == metadata0 - ExistingNames(userDir, names[..i], dirs, present0)
    {
      ghost var files := fs.files;
      ghost var metas := fs.metadataFiles;
      ghost var metadataBefore := metadata;
      var counted;
      metadata, counted := VisitName(fs, userDir, names[i], metadata);
      VisitInvariant(userDir, names, i, dirs, files0, metas0, present0, metadata0, files, metas, metadataBefore, counted,
                     fs.files, fs.metadataFiles, metadata);
      if counted {
        deleted := deleted + 1;
      }
      i := i + 1;
    }
    assert names[..i] == names;
  }

  /** One visit keeps the loop's invariants of `VisitAll`. */
  lemma VisitInvariant(userDir: Path, names: seq<string>, i: nat, dirs: set<Path>,
                       files0: map<Path, string>, metas0: map<Path, MetadataMap>, present0: set<Path>, metadata0: MetadataMap,
                       files: map<Path, string>, metas: map<Path, MetadataMap>, metadata: MetadataMap, counted: bool,
                       files1: map<Path, string>, metas1: map<Path, MetadataMap>, metadata1: MetadataMap)
    requires i < |names|
    requires present0 == files0.Keys + metas0.Keys
    requires files == files0 - BulkPaths(userDir, names[..i])
    requires metas == metas0 - BulkPaths(userDir, names[..i])
    requires metadata == metadata0 - ExistingNames(userDir, names[..i], dirs, present0)
    requires counted == ExistsIn(dirs, files.Keys, metas.Keys, Join(userDir, names[i]))
    requires files1 == files - {Join(userDir, names[i])}
    requires metas1 == metas - {Join(userDir, names[i])}
    requires metadata1 == if counted then metadata - {names[i]} else metadata
    ensures files1 == files0 - BulkPaths(userDir, names[..i + 1])
    ensures metas1 == metas0 - BulkPaths(userDir, names[..i + 1])
    ensures metadata1 == metadata0 - ExistingNames(userDir, names[..i + 1], dirs, present0)
    ensures VisitCount(userDir, names[i..], dirs, files.Keys + metas.Keys) ==
              (if counted then 1 else 0) + VisitCount(userDir, names[i + 1..], dirs, files1.Keys + metas1.Keys)
  {
    var p := Join(userDir, names[i]);
    var visited := BulkPaths(userDir, names[..i]);
    var present := files.Keys + metas.Keys;
    assert present == present0 - visited;
    VisitStep(userDir, names, i, dirs, present0, present);
    MinusStep(files0, visited, p);
    MinusStep(metas0, visited, p);
    KeysMinus(files, metas, p);
    if counted {
      MinusStep(metadata0, ExistingNames(userDir, names[..i], dirs, present0), names[i]);
    }
  }

  lemma MinusStep<K, V>(m: map<K, V>, removed: set<K>, k: K)
    ensures (m - removed) - {k} == m - (removed + {k})
  {
  }

  lemma KeysMinus<V, W>(m: map<Path, V>, n: map<Path, W>, p: Path)
    ensures (m - {p}).Keys + (n - {p}).Keys == (m.Keys + n.Keys) - {p}
  {
  }

  /** One visit of the loop: unlink the name's path if it exists and forget its metadata key. */
  method VisitName(fs: FileSystem, userDir: Path, name: string, metadata: MetadataMap)
    returns (metadataAfter: MetadataMap, counted: bool)
    modifies fs
    ensures counted == old(fs.Exists(Join(userDir, name)))
    ensures metadataAfter == if counted then metadata - {name} else metadata
    ensures fs.dirs == old(fs.dirs)
    ensures fs.files == old(fs.files) - {Join(userDir, name)}
    ensures fs.metadataFiles == old(fs.metadataFiles) - {Join(userDir, name)}
  {
    var path := Join(userDir, name);
    counted := fs.Exists(path);
    metadataAfter := metadata;
    if counted {
      fs.Remove(path);
      if name in metadataAfter {
        metadataAfter := metadataAfter - {name};
      }
    }
  }

  // ---------------------------------------------------------------- upload

  /**
   * The upload for the client, once the form, the file field, the nonce and a non-empty name
   * are there: the acting admin's own counter, the validator, then the folder is created if
   * missing, then the move and the record, tagged `admin`, in the metadata read from disk.
   */
  method AdminAdmitAndStore(fs: FileSystem, counters: Counters, key: RateKey, userDir: Path, root: Path,
                            f: UploadCandidate, policy: Policy, now: nat, content: string, moved: bool)
    returns (outcome: UploadOutcome)
    modifies fs, counters
    ensures outcome == GateOutcome(RoomIn(old(counters.counts), key), f, policy, moved, now)
    ensures !outcome.Uploaded? ==> counters.counts == old(counters.counts) && fs.metadataFiles == old(fs.metadataFiles)
    ensures outcome.RateLimited? || outcome.Rejected? ==> fs.dirs == old(fs.dirs) && fs.files == old(fs.files)
    ensures outcome.MoveFailed? || outcome.Uploaded? ==>
      fs.dirs == DirsAfterEnsure(old(fs.dirs), old(fs.files.Keys), old(fs.metadataFiles.Keys), userDir)
    ensures outcome.MoveFailed? ==>
      fs.files == FilesAfterEnsure(old(fs.dirs), old(fs.files), old(fs.metadataFiles.Keys), userDir, root)
    ensures outcome.Uploaded? ==>
      && counters.counts == old(counters.counts)[key := CountIn(old(counters.counts), key) + 1]
      && fs.files == FilesAfterEnsure(old(fs.dirs), old(fs.files), old(fs.metadataFiles.Keys), userDir, root)[StoredPath(userDir, now, f.name) := content]
      && fs.metadataFiles == old(fs.metadataFiles)[MetadataPath(userDir) :=
           old(fs.MetadataOf(userDir))[outcome.storedName := Encode(Entry(outcome.storedName, now, AdminRole))]]
    ensures WithinHourlyLimit(old(counters.counts)) ==> WithinHourlyLimit(counters.counts)
  {
    ghost var gate := GateOutcome(counters.HasRoom(key), f, policy, moved, now);
    var refusal := Admit(counters, key, f, policy);
    if refusal.Some? {
      assert refusal.value == gate;
      return refusal.value;
    }
    assert counters.HasRoom(key) && Acceptable(f, policy);
    assert gate == (if moved then Uploaded(StoredName(now, f.name)) else MoveFailed);
    outcome := PlaceForClient(fs, counters, key, userDir, root, now, f.name, content, moved);
  }

  /**
   * After the gate: create the client's folder if it is missing, then the move; on success
   * the counter is bumped and the record, tagged `admin`, is added to the metadata on disk.
   */
  method PlaceForClient(fs: FileSystem, counters: Counters, key: RateKey, userDir: Path, root: Path,
                        now: nat, uploadName: string, content: string, moved: bool)
    returns (outcome: UploadOutcome)
    modifies fs, counters
    ensures outcome == (if moved then Uploaded(StoredName(now, uploadName)) else MoveFailed)
    ensures fs.dirs == DirsAfterEnsure(old(fs.dirs), old(fs.files.Keys), old(fs.metadataFiles.Keys), userDir)
    ensures !moved ==>
      && counters.counts == old(counters.counts)
      && fs.files == FilesAfterEnsure(old(fs.dirs), old(fs.files), old(fs.metadataFiles.Keys), userDir, root)
      && fs.metadataFiles == old(fs.metadataFiles)
    ensures moved ==>
      && counters.counts == old(counters.counts)[key := CountIn(old(counters.counts), key) + 1]
      && fs.files == FilesAfterEnsure(old(fs.dirs), old(fs.files), old(fs.metadataFiles.Keys), userDir, root)[StoredPath(userDir, now, uploadName) := content]
      && fs.metadataFiles == old(fs.metadataFiles)[MetadataPath(userDir) :=
           old(fs.MetadataOf(userDir))[outcome.storedName := Encode(Entry(outcome.storedName, now, AdminRole))]]
    ensures WithinHourlyLimit(old(counters.counts)) && RoomIn(old(counters.counts), key) ==> WithinHourlyLimit(counters.counts)
  {
    ghost var counts := counters.counts;
    EnsureUserDir(fs, userDir, root);
    assert counters.counts == counts;
    if !moved {
      return MoveFailed;
    }
    var stored, _ := RecordUpload(fs, counters, key, userDir, fs.MetadataOf(userDir), now, uploadName, content, AdminRole);
    outcome := Uploaded(stored);
  }

  /** `isset` of the button and of the file field, the nonce, then a non-empty file name. */
  predicate AdminUploadRequested(submitted: bool, file: Option<UploadCandidate>, nonceOk: bool) {
    submitted && file.Some? && nonceOk && Truthy(file.value.name)
  }

  /** The admin upload handler; the counter is keyed by the acting admin's ID, not the client's. */
  method AdminUpload(fs: FileSystem, counters: Counters, actingAdminId: int, userDir: Path, root: Path,
                     submitted: bool, file: Option<UploadCandidate>, nonceOk: bool, policy: Policy,
                     now: nat, content: string, moved: bool)
    returns (outcome: UploadOutcome)
    modifies fs, counters
    ensures !AdminUploadRequested(submitted, file, nonceOk) ==>
      outcome == NoUpload && counters.counts == old(counters.counts)
      && fs.dirs == old(fs.dirs) && fs.files == old(fs.files) && fs.metadataFiles == old(fs.metadataFiles)
    ensures AdminUploadRequested(submitted, file, nonceOk) ==>
      outcome == GateOutcome(RoomIn(old(counters.counts), KeyFor(actingAdminId, now)), file.value, policy, moved, now)
    ensures !outcome.Uploaded? ==> counters.counts == old(counters.counts)
    ensures outcome.Uploaded? ==>
      var key := KeyFor(actingAdminId, now);
      counters.counts == old(counters.counts)[key := CountIn(old(counters.counts), key) + 1]
    ensures outcome.RateLimited? || outcome.Rejected? ==> fs.dirs == old(fs.dirs) && fs.files == old(fs.files)
    ensures !outcome.Uploaded? ==> fs.metadataFiles == old(fs.metadataFiles)
    ensures outcome.Uploaded? ==>
      && fs.dirs == DirsAfterEnsure(old(fs.dirs), old(fs.files.Keys), old(fs.metadataFiles.Keys), userDir)
      && fs.files == FilesAfterEnsure(old(fs.dirs), old(fs.files), old(fs.metadataFiles.Keys), userDir, root)[StoredPath(userDir, now, file.value.name) := content]
      && fs.metadataFiles == old(fs.metadataFiles)[MetadataPath(userDir) :=
           old(fs.MetadataOf(userDir))[outcome.storedName := Encode(Entry(outcome.storedName, now, AdminRole))]]
    ensures WithinHourlyLimit(old(counters.counts)) ==> WithinHourlyLimit(counters.counts)
  {
    if !AdminUploadRequested(submitted, file, nonceOk) {
      return NoUpload;
    }
    outcome := AdminAdmitAndStore(fs, counters, KeyFor(actingAdminId, now), userDir, root, file.value, policy, now, content, moved);
  }

  // ---------------------------------------------------------------- listing

  /** Every entry of the metadata, normalised. */
  function AllEntries(metadata: MetadataMap): set<Entry> {
    set k | k in metadata :: Normalize(k, metadata[k])
  }

  lemma AllEntriesStep(metadata: MetadataMap, keys: set<string>, k: string)
    requires k !in keys && k in metadata && keys <= metadata.Keys
    ensures var e := Normalize(k, metadata[k]);
      multiset(set j | j in keys + {k} :: Normalize(j, metadata[j])) ==
        multiset(set j | j in keys :: Normalize(j, metadata[j])) + multiset{e}
  {
    var e := Normalize(k, metadata[k]);
    var before := set j | j in keys :: Normalize(j, metadata[j]);
    assert e !in before;
    assert (set j | j in keys + {k} :: Normalize(j, metadata[j])) == before + {e};
  }

  /**
   * The page's table: nothing when the user's folder is missing; otherwise one row per
   * metadata entry, normalised as the client listing does, with no existence filter and
   * no ordering.
   */
  method AdminListing(fs: FileSystem, userDir: Path) returns (rows: seq<Entry>)
    ensures !fs.Exists(userDir) ==> rows == []
    ensures fs.Exists(userDir) ==> multiset(rows) == multiset(AllEntries(fs.MetadataOf(userDir)))
  {
    rows := [];
    if !fs.Exists(userDir) {
      return;
    }
    var metadata := fs.MetadataOf(userDir);
    var remaining := metadata.Keys;
    while remaining != {}
      invariant remaining <= metadata.Keys
      invariant multiset(rows) == multiset(set j | j in metadata.Keys - remaining :: Normalize(j, metadata[j]))
      decreases |remaining|
    {
      var file :| file in remaining;
      AllEntriesStep(metadata, metadata.Keys - remaining, file);
      assert metadata.Keys - (remaining - {file}) == (metadata.Keys - remaining) + {file};
      rows := rows + [Normalize(file, metadata[file])];
      remaining := remaining - {file};
    }
    assert metadata.Keys - remaining == metadata.Keys;
  }

  // ---------------------------------------------------------------- download

  const AdminDownloadNoncePrefix: string := "cdm_admin_dl_"

  datatype AdminDownloadResult =
    | Ignored
    | DownloadSecurityFailed
    | DownloadUserNotFound
    | DownloadFileNotFound
    | Serve(path: Path, filename: string)

  /** The guards before the user lookup: an admin, a non-empty name and user ID, and a valid per-file nonce. */
  predicate AdminDownloadPasses(canManage: bool, request: string, userIdParam: string, nonceValid: string -> bool,
                                sanitize: string -> string)
  {
    canManage && Truthy(request) && Truthy(userIdParam) && nonceValid(AdminDownloadNoncePrefix + Basename(sanitize(request)))
  }

  /**
   * The `admin_init` download handler: an admin with a non-empty file name and user ID, a
   * nonce valid for `cdm_admin_dl_` plus that name, and an existing user gets the file at
   * `root/sanitized-login/name` if it exists, under its full stored name.
   */
  function AdminDownload(fs: FileSystem, canManage: bool, request: string, userIdParam: string,
                         nonceValid: string -> bool, lookup: int -> Option<string>,
                         root: Path, sanitize: string -> string): (r: AdminDownloadResult)
    reads fs
    ensures r == Ignored <==> !canManage || !Truthy(request) || !Truthy(userIdParam)
    ensures r == DownloadSecurityFailed <==>
      canManage && Truthy(request) && Truthy(userIdParam) && !nonceValid(AdminDownloadNoncePrefix + Basename(sanitize(request)))
    ensures r == DownloadUserNotFound <==>
      AdminDownloadPasses(canManage, request, userIdParam, nonceValid, sanitize) && lookup(IntVal(userIdParam)).None?
    ensures r.Serve? <==>
      && AdminDownloadPasses(canManage, request, userIdParam, nonceValid, sanitize)
      && lookup(IntVal(userIdParam)).Some?
      && fs.Exists(AdminPath(UserDir(root, sanitize(lookup(IntVal(userIdParam)).value)), request, sanitize))
    ensures r == DownloadFileNotFound <==>
      && AdminDownloadPasses(canManage, request, userIdParam, nonceValid, sanitize)
      && lookup(IntVal(userIdParam)).Some?
      && !fs.Exists(AdminPath(UserDir(root, sanitize(lookup(IntVal(userIdParam)).value)), request, sanitize))
    ensures r.Serve? ==>
      && r.filename == Basename(sanitize(request))
      && nonceValid(AdminDownloadNoncePrefix + r.filename)
      && r.path == AdminPath(UserDir(root, sanitize(lookup(IntVal(userIdParam)).value)), request, sanitize)
      && fs.Exists(r.path)
  {
    if !canManage || !Truthy(request) || !Truthy(userIdParam) then Ignored
    else
      var filename := Basename(sanitize(request));
      if !nonceValid(AdminDownloadNoncePrefix + filename) then DownloadSecurityFailed
      else
        var login := lookup(IntVal(userIdParam));
        if login.None? then DownloadUserNotFound
        else
          var path := AdminPath(UserDir(root, sanitize(login.value)), request, sanitize);
          if fs.Exists(path) then Serve(path, filename) else DownloadFileNotFound
  }

  /**
   * `get_userdata(0)` is false, so a truthy but non-numeric `user_id`, which `intval` reads as
   * 0, ends in "User not found" once the nonce has passed.
   */
  lemma NonNumericUserIdIsNotFound(fs: FileSystem, request: string, nonceValid: string -> bool,
                                   lookup: int -> Option<string>, root: Path, sanitize: string -> string)
    requires lookup(0).None?
    requires Truthy(request) && nonceValid(AdminDownloadNoncePrefix + Basename(sanitize(request)))
    ensures AdminDownload(fs, true, request, "abc", nonceValid, lookup, root, sanitize) == DownloadUserNotFound
  {
    var id := "abc";
    assert Truthy(id) by { assert id != "" && id != "0"; }
    assert IntVal(id) == 0;
  }

  /** The served path is one component below the user's folder: `basename` leaves no `/` in the name. */
  lemma AdminDownloadStaysOneLevelDown(fs: FileSystem, canManage: bool, request: string, userIdParam: string,
                                       nonceValid: string -> bool, lookup: int -> Option<string>,
                                       root: Path, sanitize: string -> string)
    requires AdminDownload(fs, canManage, request, userIdParam, nonceValid, lookup, root, sanitize).Serve?
    ensures var r := AdminDownload(fs, canManage, request, userIdParam, nonceValid, lookup, root, sanitize);
      var userDir := UserDir(root, sanitize(lookup(IntVal(userIdParam)).value));
      StartsWith(r.path, userDir + "/") && '/' !in r.path[|userDir| + 1..]
  {
  }

  /** `basename` keeps `..`: without a sanitizer that rewrites it, a name can point at the parent folder. */
  lemma BasenameKeepsParentReference()
    ensures Basename("..") == ".."
  {
    assert RTrim("..", {'/'}) == "..";
    assert LastIndexOf("..", '/') == -1;
  }
}

=== FILE: client.dfy ===
/**
 * The client side: the `[cdm_client_login]` shortcode's request handling (delete, then
 * upload, then the listing of the user's folder) and the `init` download handler.
 *
 * The shortcode loads the user's metadata once, into memory; the delete and upload steps
 * update that copy and write it back, and the listing is built from it.
 */
module Client {
  import opened Wrappers
  import opened PhpBuiltins
  import opened Naming
  import opened Validation
  import opened Metadata
  import opened Storage
  import opened RateLimit
  import opened Uploads

  /** The logged-in user's folder: `trailingslashit(CDM_UPLOAD_ROOT) . sanitize_file_name($login)`. */
  function ClientUserDir(root: Path, login: string, sanitize: string -> string): (d: Path)
    ensures StartsWith(d, TrailingSlashIt(root))
  {
    UserDir(root, sanitize(login))
  }

  /** The metadata the shortcode starts from; a missing or undecodable file gives `[]`. */
  function LoadMetadata(fs: FileSystem, userDir: Path): (m: MetadataMap)
    reads fs
    ensures MetadataPath(userDir) !in fs.metadataFiles ==> m == map[]
    ensures MetadataPath(userDir) in fs.metadataFiles ==> m == fs.metadataFiles[MetadataPath(userDir)]
  {
    fs.MetadataOf(userDir)
  }

  // ---------------------------------------------------------------- delete

  datatype DeleteOutcome = NoDelete | DeleteSecurityFailed | Deleted | NotFound

  /** `basename(sanitize_file_name($_POST['cdm_delete_file']))`. */
  function RequestedName(request: string, sanitize: string -> string): (name: string)
    ensures '/' !in name
  {
    Basename(sanitize(request))
  }

  /**
   * The delete guard: `realpath($user_dir . '/' . $name)` succeeds, starts with the user
   * folder's path as written (no separator required after it), and names something that exists.
   */
  predicate ClientMayDelete(fs: FileSystem, userDir: Path, name: string, canon: Path -> Option<Path>)
    reads fs
  {
    var rp := canon(Join(userDir, name));
    rp.Some? && Truthy(rp.value) && StartsWith(rp.value, userDir) && fs.Exists(rp.value)
  }

  /**
   * The shortcode's delete step. On success the canonical path is unlinked, and the metadata
   * key is dropped and the file rewritten only when that key was present; every refusal
   * changes nothing.
   */
  method ClientDelete(fs: FileSystem, userDir: Path, metadata: MetadataMap, isPost: bool, request: string,
                      nonceOk: bool, sanitize: string -> string, canon: Path -> Option<Path>)
    returns (outcome: DeleteOutcome, metadataAfter: MetadataMap)
    modifies fs
    ensures !(isPost && Truthy(request)) ==> outcome == NoDelete
    ensures isPost && Truthy(request) && !nonceOk ==> outcome == DeleteSecurityFailed
    ensures isPost && Truthy(request) && nonceOk ==>
      outcome == (if old(ClientMayDelete(fs, userDir, RequestedName(request, sanitize), canon)) then Deleted else NotFound)
    ensures outcome != Deleted ==>
      metadataAfter == metadata && fs.dirs == old(fs.dirs) && fs.files == old(fs.files) && fs.metadataFiles == old(fs.metadataFiles)
    ensures metadataAfter == AfterDelete(metadata, outcome, RequestedName(request, sanitize))
    ensures fs.files == FilesAfterDelete(old(fs.files), outcome, DeleteTarget(userDir, request, sanitize, canon))
    ensures fs.metadataFiles ==
      MetasAfterDelete(old(fs.metadataFiles), userDir, metadata, outcome, RequestedName(request, sanitize),
                       DeleteTarget(userDir, request, sanitize, canon))
    ensures outcome == Deleted ==> canon(Join(userDir, RequestedName(request, sanitize))).Some?
    ensures outcome == Deleted ==>
      var name := RequestedName(request, sanitize);
      var rp := canon(Join(userDir, name)).value;
      && fs.dirs == old(fs.dirs)
      && fs.files == old(fs.files) - {rp}
      && metadataAfter == metadata - {name}
      && fs.metadataFiles == (if name in metadata then (old(fs.metadataFiles) - {rp})[MetadataPath(userDir) := metadataAfter]
                              else old(fs.metadataFiles) - {rp})
  {
    metadataAfter := metadata;
    if !(isPost && Truthy(request)) {
      return NoDelete, metadataAfter;
    }
    if !nonceOk {
      return DeleteSecurityFailed, metadataAfter;
    }
    var name := RequestedName(request, sanitize);
    if ClientMayDelete(fs, userDir, name, canon) {
      metadataAfter := RemoveDocument(fs, userDir, metadata, name, canon(Join(userDir, name)).value);
      outcome := Deleted;
    } else {
      outcome := NotFound;
    }
  }

  /** Unlink `path`, then drop `name` from the metadata and rewrite it only if the key was there. */
  method RemoveDocument(fs: FileSystem, userDir: Path, metadata: MetadataMap, name: string, path: Path)
    returns (metadataAfter: MetadataMap)
    modifies fs
    ensures metadataAfter == metadata - {name}
    ensures fs.dirs == old(fs.dirs) && fs.files == old(fs.files) - {path}
    ensures fs.metadataFiles == (if name in metadata then (old(fs.metadataFiles) - {path})[MetadataPath(userDir) := metadataAfter]
                                 else old(fs.metadataFiles) - {path})
  {
    fs.Remove(path);
    metadataAfter := metadata;
    if name in metadata {
      metadataAfter := metadata - {name};
      fs.WriteMetadata(userDir, metadataAfter);
    }
  }

  // ---------------------------------------------------------------- upload

  /** `!empty($_FILES['cdm_file']['name']) && isset($_FILES['cdm_file']['tmp_name'])` on a POST. */
  predicate UploadRequested(isPost: bool, file: Option<UploadCandidate>) {
    isPost && file.Some? && Truthy(file.value.name)
  }

  /**
   * The shortcode's upload step: nonce, then the hourly counter of the user's own ID, then the
   * validator, then the move. Only a successful move bumps the counter, places the file at
   * `timestamp-basename` and records it as a `client` upload in the metadata written back.
   */
  method ClientUpload(fs: FileSystem, counters: Counters, userId: int, userDir: Path, metadata: MetadataMap,
                      isPost: bool, file: Option<UploadCandidate>, nonceOk: bool, policy: Policy,
                      now: nat, content: string, moved: bool)
    returns (outcome: UploadOutcome, metadataAfter: MetadataMap)
    modifies fs, counters
    ensures !UploadRequested(isPost, file) ==> outcome == NoUpload
    ensures UploadRequested(isPost, file) && !nonceOk ==> outcome == SecurityFailed
    ensures UploadRequested(isPost, file) && nonceOk ==>
      outcome == GateOutcome(RoomIn(old(counters.counts), KeyFor(userId, now)), file.value, policy, moved, now)
    ensures !outcome.Uploaded? ==>
      && metadataAfter == metadata
      && counters.counts == old(counters.counts)
      && fs.dirs == old(fs.dirs) && fs.files == old(fs.files) && fs.metadataFiles == old(fs.metadataFiles)
    ensures outcome.Uploaded? ==> UploadRequested(isPost, file) && nonceOk
    ensures outcome.Uploaded? ==>
      BumpedAt(old(counters.counts), counters.counts, KeyFor(userId, now))
    ensures outcome.Uploaded? ==>
      && fs.dirs == old(fs.dirs)
      && fs.files == old(fs.files)[StoredPath(userDir, now, file.value.name) := content]
      && metadataAfter == metadata[outcome.storedName := Encode(Entry(outcome.storedName, now, ClientRole))]
      && fs.metadataFiles == old(fs.metadataFiles)[MetadataPath(userDir) := metadataAfter]
    ensures WithinHourlyLimit(old(counters.counts)) ==> WithinHourlyLimit(counters.counts)
  {
    if !UploadRequested(isPost, file) {
      return NoUpload, metadata;
    }
    if !nonceOk {
      return SecurityFailed, metadata;
    }
    var key := KeyFor(userId, now);
    outcome, metadataAfter := AdmitAndStore(fs, counters, key, userDir, metadata, file.value, policy, now, content, moved);
  }

  /** The upload step once the nonce has passed: counter, validator, move, then the record. */
  method AdmitAndStore(fs: FileSystem, counters: Counters, key: RateKey, userDir: Path, metadata: MetadataMap,
                       f: UploadCandidate, policy: Policy, now: nat, content: string, moved: bool)
    returns (outcome: UploadOutcome, metadataAfter: MetadataMap)
    modifies fs, counters
    ensures outcome == GateOutcome(RoomIn(old(counters.counts), key), f, policy, moved, now)
    ensures !outcome.Uploaded? ==>
      && metadataAfter == metadata
      && counters.counts == old(counters.counts)
      && fs.dirs == old(fs.dirs) && fs.files == old(fs.files) && fs.metadataFiles == old(fs.metadataFiles)
    ensures outcome.Uploaded? ==>
      && counters.counts == old(counters.counts)[key := CountIn(old(counters.counts), key) + 1]
      && fs.dirs == old(fs.dirs)
      && fs.files == old(fs.files)[StoredPath(userDir, now, f.name) := content]
      && metadataAfter == metadata[outcome.storedName := Encode(Entry(outcome.storedName, now, ClientRole))]
      && fs.metadataFiles == old(fs.metadataFiles)[MetadataPath(userDir) := metadataAfter]
    ensures WithinHourlyLimit(old(counters.counts)) ==> WithinHourlyLimit(counters.counts)
  {
    ghost var gate := GateOutcome(counters.HasRoom(key), f, policy, moved, now);
    var refusal := Admit(counters, key, f, policy);
    if refusal.Some? {
      assert refusal.value == gate;
      return refusal.value, metadata;
    }
    outcome, metadataAfter := StoreUpload(fs, counters, key, userDir, metadata, now, f.name, content, moved);
  }

  /** After the gate: the move, then on success the counter, the record tagged `client` and the write. */
  method StoreUpload(fs: FileSystem, counters: Counters, key: RateKey, userDir: Path, metadata: MetadataMap,
                     now: nat, uploadName: string, content: string, moved: bool)
    returns (outcome: UploadOutcome, metadataAfter: MetadataMap)
    modifies fs, counters
    ensures outcome == (if moved then Uploaded(StoredName(now, uploadName)) else MoveFailed)
    ensures !moved ==>
      && metadataAfter == metadata
      && counters.counts == old(counters.counts)
      && fs.dirs == old(fs.dirs) && fs.files == old(fs.files) && fs.metadataFiles == old(fs.metadataFiles)
    ensures moved ==>
      && counters.counts == old(counters.counts)[key := CountIn(old(counters.counts), key) + 1]
      && fs.dirs == old(fs.dirs)
      && fs.files == old(fs.files)[StoredPath(userDir, now, uploadName) := content]
      && metadataAfter == metadata[outcome.storedName := Encode(Entry(outcome.storedName, now, ClientRole))]
      && fs.metadataFiles == old(fs.metadataFiles)[MetadataPath(userDir) := metadataAfter]
    ensures WithinHourlyLimit(old(counters.counts)) && RoomIn(old(counters.counts), key) ==> WithinHourlyLimit(counters.counts)
  {
    if !moved {
      return MoveFailed, metadata;
    }
    var stored;
    stored, metadataAfter := RecordUpload(fs, counters, key, userDir, metadata, now, uploadName, content, ClientRole);
    outcome := Uploaded(stored);
  }

  // ---------------------------------------------------------------- listing

  /**
   * The normalised entries among `keys` whose file exists in the user's folder and whose
   * uploader is (`admin` true) or is not (`admin` false) exactly `admin`.
   */
  function SharedAmong(fs: FileSystem, userDir: Path, metadata: MetadataMap, keys: set<string>, admin: bool): set<Entry>
    reads fs
  {
    set k | k in keys && k in metadata && fs.Exists(Join(userDir, k)) && IsAdminUpload(Normalize(k, metadata[k])) == admin
      :: Normalize(k, metadata[k])
  }

  /** "Documents for you": listed entries the admin uploaded. */
  function AdminShare(fs: FileSystem, userDir: Path, metadata: MetadataMap): set<Entry>
    reads fs
  {
    SharedAmong(fs, userDir, metadata, metadata.Keys, true)
  }

  /** "Your Uploaded Documents": every other listed entry. */
  function ClientShare(fs: FileSystem, userDir: Path, metadata: MetadataMap): set<Entry>
    reads fs
  {
    SharedAmong(fs, userDir, metadata, metadata.Keys, false)
  }

  /**
   * An entry is listed, in exactly one of the two lists, iff its key is in the metadata and
   * its file exists; the admin list takes it iff its role is exactly `admin`.
   */
  lemma ListingPartition(fs: FileSystem, userDir: Path, metadata: MetadataMap, e: Entry)
    ensures e in AdminShare(fs, userDir, metadata) <==>
      e.file in metadata && fs.Exists(Join(userDir, e.file)) && e == Normalize(e.file, metadata[e.file]) && IsAdminUpload(e)
    ensures e in ClientShare(fs, userDir, metadata) <==>
      e.file in metadata && fs.Exists(Join(userDir, e.file)) && e == Normalize(e.file, metadata[e.file]) && !IsAdminUpload(e)
    ensures !(e in AdminShare(fs, userDir, metadata) && e in ClientShare(fs, userDir, metadata))
  {
    if e.file in metadata && fs.Exists(Join(userDir, e.file)) && e == Normalize(e.file, metadata[e.file]) {
      assert e.file in metadata.Keys;
    }
  }

  /** Visiting one more key adds at most its own entry, which was not there before. */
  lemma SharedAmongStep(fs: FileSystem, userDir: Path, metadata: MetadataMap, keys: set<string>, k: string, admin: bool)
    requires k !in keys && k in metadata
    ensures var e := Normalize(k, metadata[k]);
      multiset(SharedAmong(fs, userDir, metadata, keys + {k}, admin)) ==
        multiset(SharedAmong(fs, userDir, metadata, keys, admin))
          + (if fs.Exists(Join(userDir, k)) && IsAdminUpload(e) == admin then multiset{e} else multiset{})
  {
    var e := Normalize(k, metadata[k]);
    var before := SharedAmong(fs, userDir, metadata, keys, admin);
    assert e !in before;
    if fs.Exists(Join(userDir, k)) && IsAdminUpload(e) == admin {
      assert SharedAmong(fs, userDir, metadata, keys + {k}, admin) == before + {e};
      assert multiset(before + {e}) == multiset(before) + multiset{e};
    } else {
      assert SharedAmong(fs, userDir, metadata, keys + {k}, admin) == before;
    }
  }

  /**
   * The listing loop over the metadata, then `usort` newest first: each list is a
   * newest-first arrangement of exactly the entries its share holds.
   */
  method ClientListing(fs: FileSystem, userDir: Path, metadata: MetadataMap)
    returns (adminFiles: seq<Entry>, clientFiles: seq<Entry>)
    ensures NewestFirst(adminFiles) && NewestFirst(clientFiles)
    ensures multiset(adminFiles) == multiset(AdminShare(fs, userDir, metadata))
    ensures multiset(clientFiles) == multiset(ClientShare(fs, userDir, metadata))
  {
    var admins: seq<Entry> := [];
    var clients: seq<Entry> := [];
    var remaining := metadata.Keys;
    while remaining != {}
      invariant remaining <= metadata.Keys
      invariant multiset(admins) == multiset(SharedAmong(fs, userDir, metadata, metadata.Keys - remaining, true))
      invariant multiset(clients) == multiset(SharedAmong(fs, userDir, metadata, metadata.Keys - remaining, false))
      decreases |remaining|
    {
      var file :| file in remaining;
      var entry := Normalize(file, metadata[file]);
      ghost var done := metadata.Keys - remaining;
      SharedAmongStep(fs, userDir, metadata, done, file, true);
      SharedAmongStep(fs, userDir, metadata, done, file, false);
      assert metadata.Keys - (remaining - {file}) == done + {file};
      if fs.Exists(Join(userDir, file)) {
        if entry.uploadedBy == AdminRole {
          admins := admins + [entry];
        } else {
          clients := clients + [entry];
        }
      }
      remaining := remaining - {file};
    }
    assert metadata.Keys - remaining == metadata.Keys;
    adminFiles := SortNewestFirst(admins);
    clientFiles := SortNewestFirst(clients);
  }

  // ---------------------------------------------------------------- the whole shortcode

  /**
   * One request to the shortcode. A visitor who is not logged in gets the login form and
   * nothing changes. Otherwise: the user's folder is created (and the root protected) if
   * missing, the metadata is read once, the delete and the upload steps run in turn on that
   * in-memory copy, and the listing is built from the copy they leave.
   */
  method ClientShortcode(fs: FileSystem, counters: Counters, root: Path, loggedIn: bool, userId: int, login: string,
                         sanitize: string -> string, canon: Path -> Option<Path>, isPost: bool,
                         deleteRequest: string, deleteNonceOk: bool,
                         file: Option<UploadCandidate>, uploadNonceOk: bool, policy: Policy,
                         now: nat, content: string, moved: bool)
    returns (deleteOutcome: DeleteOutcome, uploadOutcome: UploadOutcome, metadata: MetadataMap,
             adminFiles: seq<Entry>, clientFiles: seq<Entry>)
    modifies fs, counters
    ensures !loggedIn ==>
      && deleteOutcome == NoDelete && uploadOutcome == NoUpload && adminFiles == [] && clientFiles == []
      && counters.counts == old(counters.counts)
      && fs.dirs == old(fs.dirs) && fs.files == old(fs.files) && fs.metadataFiles == old(fs.metadataFiles)
    ensures loggedIn ==> var userDir := ClientUserDir(root, login, sanitize);
      && fs.dirs == DirsAfterEnsure(old(fs.dirs), old(fs.files.Keys), old(fs.metadataFiles.Keys), userDir)
      && NewestFirst(adminFiles) && NewestFirst(clientFiles)
      && multiset(adminFiles) == multiset(AdminShare(fs, userDir, metadata))
      && multiset(clientFiles) == multiset(ClientShare(fs, userDir, metadata))
      && (!uploadOutcome.Uploaded? ==>
            metadata == AfterDelete(old(fs.MetadataOf(userDir)), deleteOutcome, RequestedName(deleteRequest, sanitize)))
      && (!uploadOutcome.Uploaded? ==>
            && fs.files == FilesAfterDelete(FilesAfterEnsure(old(fs.dirs), old(fs.files), old(fs.metadataFiles.Keys), userDir, root),
                                            deleteOutcome, DeleteTarget(userDir, deleteRequest, sanitize, canon))
            && fs.metadataFiles ==
                 MetasAfterDelete(old(fs.metadataFiles), userDir, old(fs.MetadataOf(userDir)), deleteOutcome,
                                  RequestedName(deleteRequest, sanitize), DeleteTarget(userDir, deleteRequest, sanitize, canon)))
      && (uploadOutcome.Uploaded? ==>
            && file.Some?
            && fs.files == FilesAfterDelete(FilesAfterEnsure(old(fs.dirs), old(fs.files), old(fs.metadataFiles.Keys), userDir, root),
                                            deleteOutcome, DeleteTarget(userDir, deleteRequest, sanitize, canon))
                 [StoredPath(userDir, now, file.value.name) := content]
            && fs.metadataFiles ==
                 MetasAfterDelete(old(fs.metadataFiles), userDir, old(fs.MetadataOf(userDir)), deleteOutcome,
                                  RequestedName(deleteRequest, sanitize), DeleteTarget(userDir, deleteRequest, sanitize, canon))
                   [MetadataPath(userDir) := metadata])
      && (uploadOutcome.Uploaded? ==>
            && metadata == AfterDelete(old(fs.MetadataOf(userDir)), deleteOutcome, RequestedName(deleteRequest, sanitize))
                 [uploadOutcome.storedName := Encode(Entry(uploadOutcome.storedName, now, ClientRole))]
            && fs.MetadataOf(userDir) == metadata)
    ensures loggedIn && !(isPost && Truthy(deleteRequest)) ==> deleteOutcome == NoDelete
    ensures loggedIn && isPost && Truthy(deleteRequest) && !deleteNonceOk ==> deleteOutcome == DeleteSecurityFailed
    ensures loggedIn && !UploadRequested(isPost, file) ==> uploadOutcome == NoUpload
    ensures loggedIn && UploadRequested(isPost, file) && !uploadNonceOk ==> uploadOutcome == SecurityFailed
    ensures loggedIn && UploadRequested(isPost, file) && uploadNonceOk ==>
      uploadOutcome == GateOutcome(RoomIn(old(counters.counts), KeyFor(userId, now)), file.value, policy, moved, now)
    ensures !uploadOutcome.Uploaded? ==> counters.counts == old(counters.counts)
    ensures uploadOutcome.Uploaded? ==>
      BumpedAt(old(counters.counts), counters.counts, KeyFor(userId, now))
    ensures WithinHourlyLimit(old(counters.counts)) ==> WithinHourlyLimit(counters.counts)
  {
    if !loggedIn {
      return NoDelete, NoUpload, map[], [], [];
    }
    var userDir := ClientUserDir(root, login, sanitize);
    EnsureUserDir(fs, userDir, root);
    var loaded := LoadMetadata(fs, userDir);
    deleteOutcome, uploadOutcome, metadata := DeleteThenUpload(fs, counters, userDir, loaded, userId, sanitize, canon, isPost,
                                                               deleteRequest, deleteNonceOk, file, uploadNonceOk,
                                                               policy, now, content, moved);
    adminFiles, clientFiles := ClientListing(fs, userDir, metadata);
  }

  /** The in-memory metadata after the delete step: the requested key is dropped only on `Deleted`. */
  function AfterDelete(loaded: MetadataMap, outcome: DeleteOutcome, name: string): (m: MetadataMap)
    ensures m.Keys <= loaded.Keys && forall k :: k in m ==> m[k] == loaded[k]
    ensures outcome == Deleted ==> name !in m && m.Keys == loaded.Keys - {name}
    ensures outcome != Deleted ==> m == loaded
  {
    if outcome == Deleted then loaded - {name} else loaded
  }

  /** The path the delete step unlinks: `realpath` of the requested name inside the user folder. */
  function DeleteTarget(userDir: Path, request: string, sanitize: string -> string, canon: Path -> Option<Path>): Option<Path> {
    canon(Join(userDir, RequestedName(request, sanitize)))
  }

  /** The regular files after the delete step: the target is unlinked only on `Deleted`. */
  function FilesAfterDelete(files: map<Path, string>, outcome: DeleteOutcome, target: Option<Path>): (r: map<Path, string>)
    ensures r.Keys <= files.Keys && forall p :: p in r ==> r[p] == files[p]
    ensures outcome == Deleted && target.Some? ==> target.value !in r && r.Keys == files.Keys - {target.value}
  {
    if outcome == Deleted && target.Some? then files - {target.value} else files
  }

  /**
   * The metadata files after the delete step: on `Deleted` the target is unlinked and, when the
   * name was a key, the folder's metadata is written back without it.
   */
  function MetasAfterDelete(metas: map<Path, MetadataMap>, userDir: Path, loaded: MetadataMap, outcome: DeleteOutcome,
                            name: string, target: Option<Path>): (r: map<Path, MetadataMap>)
    ensures outcome != Deleted || target.None? ==> r == metas
    ensures outcome == Deleted && target.Some? && name in loaded ==> MetadataPath(userDir) in r && r[MetadataPath(userDir)] == loaded - {name}
    ensures forall p :: p in r && p != MetadataPath(userDir) ==> p in metas && r[p] == metas[p]
  {
    if outcome == Deleted && target.Some? then
      if name in loaded then (metas - {target.value})[MetadataPath(userDir) := loaded - {name}] else metas - {target.value}
    else metas
  }

  /**
   * The shortcode's two actions on the metadata read at the start: the delete step, then the
   * upload step on what the delete left. No directory is created or removed.
   */
  method DeleteThenUpload(fs: FileSystem, counters: Counters, userDir: Path, loaded: MetadataMap, userId: int,
                          sanitize: string -> string, canon: Path -> Option<Path>, isPost: bool,
                          deleteRequest: string, deleteNonceOk: bool,
                          file: Option<UploadCandidate>, uploadNonceOk: bool, policy: Policy,
                          now: nat, content: string, moved: bool)
    returns (deleteOutcome: DeleteOutcome, uploadOutcome: UploadOutcome, metadata: MetadataMap)
    modifies fs, counters
    ensures fs.dirs == old(fs.dirs)
    ensures !uploadOutcome.Uploaded? ==> metadata == AfterDelete(loaded, deleteOutcome, RequestedName(deleteRequest, sanitize))
    ensures !uploadOutcome.Uploaded? ==>
      && fs.files == FilesAfterDelete(old(fs.files), deleteOutcome, DeleteTarget(userDir, deleteRequest, sanitize, canon))
      && fs.metadataFiles ==
           MetasAfterDelete(old(fs.metadataFiles), userDir, loaded, deleteOutcome, RequestedName(deleteRequest, sanitize),
                            DeleteTarget(userDir, deleteRequest, sanitize, canon))
    ensures uploadOutcome.Uploaded? ==>
      && file.Some?
      && fs.files == FilesAfterDelete(old(fs.files), deleteOutcome, DeleteTarget(userDir, deleteRequest, sanitize, canon))
           [StoredPath(userDir, now, file.value.name) := content]
      && fs.metadataFiles ==
           MetasAfterDelete(old(fs.metadataFiles), userDir, loaded, deleteOutcome, RequestedName(deleteRequest, sanitize),
                            DeleteTarget(userDir, deleteRequest, sanitize, canon))[MetadataPath(userDir) := metadata]
    ensures uploadOutcome.Uploaded? ==>
      && metadata == AfterDelete(loaded, deleteOutcome, RequestedName(deleteRequest, sanitize))
           [uploadOutcome.storedName := Encode(Entry(uploadOutcome.storedName, now, ClientRole))]
      && fs.MetadataOf(userDir) == metadata
    ensures !(isPost && Truthy(deleteRequest)) ==> deleteOutcome == NoDelete
    ensures isPost && Truthy(deleteRequest) && !deleteNonceOk ==> deleteOutcome == DeleteSecurityFailed
    ensures !UploadRequested(isPost, file) ==> uploadOutcome == NoUpload
    ensures UploadRequested(isPost, file) && !uploadNonceOk ==> uploadOutcome == SecurityFailed
    ensures UploadRequested(isPost, file) && uploadNonceOk ==>
      uploadOutcome == GateOutcome(RoomIn(old(counters.counts), KeyFor(userId, now)), file.value, policy, moved, now)
    ensures !uploadOutcome.Uploaded? ==> counters.counts == old(counters.counts)
    ensures uploadOutcome.Uploaded? ==>
      BumpedAt(old(counters.counts), counters.counts, KeyFor(userId, now))
    ensures WithinHourlyLimit(old(counters.counts)) ==> WithinHourlyLimit(counters.counts)
  {
    var afterDelete;
    deleteOutcome, afterDelete := ClientDelete(fs, userDir, loaded, isPost, deleteRequest, deleteNonceOk, sanitize, canon);
    uploadOutcome, metadata := ClientUpload(fs, counters, userId, userDir, afterDelete, isPost, file, uploadNonceOk,
                                            policy, now, content, moved);
  }

  // ---------------------------------------------------------------- download

  /** A file served as an attachment, with the name the browser is told to save it under. */
  datatype Attachment = Attachment(path: Path, filename: string)

  /** `strpos($path, rtrim($dir, '/') . '/') === 0`: below the directory, not the directory itself. */
  predicate StrictlyInside(path: Path, dir: Path) {
    StartsWith(path, RTrim(dir, {'/'}) + "/")
  }

  /** The download guard on the canonical paths of the file and of the user's folder. */
  predicate ClientMayDownload(fs: FileSystem, userDir: Path, name: string, canon: Path -> Option<Path>)
    reads fs
  {
    var rp := canon(Join(userDir, name));
    var rd := canon(userDir);
    rp.Some? && Truthy(rp.value) && rd.Some? && Truthy(rd.value) && StrictlyInside(rp.value, rd.value) && fs.Exists(rp.value)
  }

  /**
   * The `init` download handler: a logged-in user asking for a file by name gets it only
   * when the guard passes, under its display name; otherwise the request is ignored.
   */
  function ClientDownload(fs: FileSystem, loggedIn: bool, request: string, userDir: Path,
                          sanitize: string -> string, canon: Path -> Option<Path>): (r: Option<Attachment>)
    reads fs
    ensures r.Some? <==> loggedIn && Truthy(request) && ClientMayDownload(fs, userDir, RequestedName(request, sanitize), canon)
    ensures r.Some? ==>
      && r.value.path == canon(Join(userDir, RequestedName(request, sanitize))).value
      && fs.Exists(r.value.path)
      && StrictlyInside(r.value.path, canon(userDir).value)
      && r.value.filename == DisplayName(RequestedName(request, sanitize))
  {
    if !loggedIn || !Truthy(request) then None
    else
      var name := RequestedName(request, sanitize);
      if ClientMayDownload(fs, userDir, name, canon) then Some(Attachment(canon(Join(userDir, name)).value, DisplayName(name)))
      else None
  }

  /** Below a folder written without a trailing slash means below it as a prefix too. */
  lemma StrictlyInsideImpliesPrefix(path: Path, dir: Path)
    requires dir != [] && dir[|dir| - 1] != '/'
    requires StrictlyInside(path, dir)
    ensures StartsWith(path, dir)
  {
    assert RTrim(dir, {'/'}) == dir;
    assert path[..|dir|] == (dir + "/")[..|dir|];
  }

  /** The folder itself passes the delete guard's prefix test but is not strictly inside itself. */
  lemma DeletePrefixAdmitsFolderItself(dir: Path)
    requires dir != [] && dir[|dir| - 1] != '/'
    ensures StartsWith(dir, dir)
    ensures !StrictlyInside(dir, dir)
  {
    assert RTrim(dir, {'/'}) == dir;
  }

  /**
   * A link `alice/link` that resolves into the sibling folder `alice2` passes the delete guard
   * of the folder `alice`, while the download guard refuses the same canonical path.
   */
  lemma DeleteGuardAdmitsSiblingFolder(fs: FileSystem, canon: Path -> Option<Path>)
    requires canon(Join("/srv/docs/alice", "link")) == Some("/srv/docs/alice2/secret")
    requires canon("/srv/docs/alice") == Some("/srv/docs/alice")
    requires fs.Exists("/srv/docs/alice2/secret")
    ensures ClientMayDelete(fs, "/srv/docs/alice", "link", canon)
    ensures !ClientMayDownload(fs, "/srv/docs/alice", "link", canon)
  {
    var dir: Path := "/srv/docs/alice";
    var target: Path := "/srv/docs/alice2/secret";
    assert target[..|dir|] == dir;
    assert RTrim(dir, {'/'}) == dir;
    assert target[|dir|] != '/';
  }
}

=== FILE: metadata.dfy ===
/**
 * The per-user metadata file: a map from stored name to either a legacy bare timestamp
 * or a record `{timestamp, uploaded_by?}`, normalised on read to one entry shape; and the
 * newest-first ordering the client listing sorts by.
 */
module Metadata {
  import opened Wrappers

  const AdminRole: string := "admin"
  const ClientRole: string := "client"

  /** A decoded value of the metadata map: the legacy scalar, or the record form. */
  datatype MetaValue =
    | Legacy(timestamp: int)
    | Record(timestamp: int, uploadedBy: Option<string>)

  type MetadataMap = map<string, MetaValue>

  /** One listed document: stored name, upload time and uploader role. */
  datatype Entry = Entry(file: string, timestamp: int, uploadedBy: string)

  /** Read a metadata value as `(timestamp, uploaded_by)`; a missing role reads as `client`. */
  function Normalize(file: string, v: MetaValue): (e: Entry)
    ensures e.file == file && e.timestamp == v.timestamp
  {
    Entry(file, v.timestamp, if v.Record? && v.uploadedBy.Some? then v.uploadedBy.value else ClientRole)
  }

  /** The record an upload writes for an entry. */
  function Encode(e: Entry): MetaValue {
    Record(e.timestamp, Some(e.uploadedBy))
  }

  /** A record written by an upload reads back as the entry it was written from. */
  lemma NormalizeEncode(e: Entry)
    ensures Normalize(e.file, Encode(e)) == e
  {
  }

  /** Legacy scalars and records without a role are client uploads. */
  lemma MissingRoleIsClient(file: string, timestamp: int)
    ensures Normalize(file, Legacy(timestamp)) == Entry(file, timestamp, ClientRole)
    ensures Normalize(file, Record(timestamp, None)) == Entry(file, timestamp, ClientRole)
  {
  }

  predicate IsAdminUpload(e: Entry) {
    e.uploadedBy == AdminRole
  }

  /** Ordered by timestamp, newest first. */
  predicate NewestFirst(s: seq<Entry>) {
    forall i, j :: 0 <= i < j < |s| ==> s[i].timestamp >= s[j].timestamp
  }

  /** Insert `e` into a newest-first list before the first entry that is not newer than it. */
  function InsertByTime(e: Entry, s: seq<Entry>): (r: seq<Entry>)
    requires NewestFirst(s)
    ensures NewestFirst(r)
    ensures multiset(r) == multiset(s) + multiset{e}
    ensures r[0] == e || (s != [] && r[0] == s[0])
  {
    if s == [] || e.timestamp >= s[0].timestamp then
      PrependNewest(e, s);
      [e] + s
    else
      TailNewestFirst(s);
      var tail := InsertByTime(e, s[1..]);
      assert s == [s[0]] + s[1..];
      assert tail[0].timestamp <= s[0].timestamp;
      PrependNewest(s[0], tail);
      [s[0]] + tail
  }

  /** An entry at least as new as the head of a newest-first list can go in front of it. */
  lemma PrependNewest(x: Entry, t: seq<Entry>)
    requires NewestFirst(t)
    requires t == [] || x.timestamp >= t[0].timestamp
    ensures NewestFirst([x] + t)
  {
    var r := [x] + t;
    forall i, j | 0 <= i < j < |r|
      ensures r[i].timestamp >= r[j].timestamp
    {
      if i == 0 {
        assert r[j] == t[j - 1];
        assert t[0].timestamp >= t[j - 1].timestamp;
      } else {
        assert r[i] == t[i - 1] && r[j] == t[j - 1];
      }
    }
  }

  /** Dropping the newest entry keeps the rest newest-first. */
  lemma TailNewestFirst(s: seq<Entry>)
    requires NewestFirst(s) && s != []
    ensures NewestFirst(s[1..])
  {
    forall i, j | 0 <= i < j < |s| - 1
      ensures s[1..][i].timestamp >= s[1..][j].timestamp
    {
      assert s[1..][i] == s[i + 1] && s[1..][j] == s[j + 1];
    }
  }

  /** `usort` with `$b['timestamp'] - $a['timestamp']`: a newest-first permutation. */
  function SortNewestFirst(s: seq<Entry>): (r: seq<Entry>)
    ensures NewestFirst(r)
    ensures multiset(r) == multiset(s)
  {
    if s == [] then []
    else
      assert s == s[..|s| - 1] + [s[|s| - 1]];
      InsertByTime(s[|s| - 1], SortNewestFirst(s[..|s| - 1]))
  }
}

=== FILE: naming.dfy ===
/**
 * Stored names and display names of uploaded documents.
 *
 * An upload is stored as `{timestamp}-{basename(original name)}`; listings and
 * downloads show it with the leading `^\d+-` prefix stripped.
 */
module Naming {
  import opened PhpBuiltins

  /** `$timestamp . "-" . basename($name)`. */
  function StoredName(timestamp: nat, uploadName: string): (r: string)
    ensures '/' !in r
    ensures HasTimestampPrefix(r)
  {
    var digits := DecimalDigits(timestamp);
    var r := digits + "-" + Basename(uploadName);
    assert AllDigits(r[..|digits|]) by { assert r[..|digits|] == digits; }
    assert r[|digits|] == '-';
    assert forall i :: 0 <= i < |digits| ==> digits[i] != '/';
    r
  }

  /** Whether `s` matches `^\d+-`: one or more decimal digits followed by a dash. */
  predicate HasTimestampPrefix(s: string) {
    exists k :: 0 < k < |s| && s[k] == '-' && AllDigits(s[..k])
  }

  /** `preg_replace('/^\d+-/', '', $stored)`. */
  function DisplayName(stored: string): (r: string)
    ensures |r| <= |stored| && forall i :: 0 <= i < |r| ==> r[i] == stored[|stored| - |r| + i]
  {
    var k := LeadingDigitCount(stored);
    if 0 < k < |stored| && stored[k] == '-' then stored[k + 1..] else stored
  }

  /** The strip leaves a name alone exactly when it has no digits-dash prefix. */
  lemma DisplayNameUnchangedIff(s: string)
    ensures DisplayName(s) == s <==> !HasTimestampPrefix(s)
  {
    if HasTimestampPrefix(s) {
      var k :| 0 < k < |s| && s[k] == '-' && AllDigits(s[..k]);
      LeadingDigitCountAt(s, k);
      assert |DisplayName(s)| < |s|;
    }
  }

  /** Exactly one digits-dash prefix is removed, whatever follows it. */
  lemma StripsOnePrefix(digits: string, rest: string)
    requires |digits| > 0 && AllDigits(digits)
    ensures DisplayName(digits + "-" + rest) == rest
  {
    var s := digits + "-" + rest;
    assert s[..|digits|] == digits;
    LeadingDigitCountAt(s, |digits|);
    assert s[|digits| + 1..] == rest;
  }

  /** The display name of a stored upload is the basename of the name it was uploaded under. */
  lemma DisplayOfStoredName(timestamp: nat, uploadName: string)
    ensures DisplayName(StoredName(timestamp, uploadName)) == Basename(uploadName)
  {
    StripsOnePrefix(DecimalDigits(timestamp), Basename(uploadName));
  }

  /** A name that itself looks stored loses only the outer prefix: `12-34-a.pdf` shows as `34-a.pdf`. */
  lemma StripIsNotRepeated()
    ensures DisplayName("12-34-a.pdf") == "34-a.pdf"
  {
    var digits := "12";
    assert IsDigit(digits[0]) && IsDigit(digits[1]);
    assert digits + "-" + "34-a.pdf" == "12-34-a.pdf";
    StripsOnePrefix(digits, "34-a.pdf");
  }
}

=== FILE: php_builtins.dfy ===
/**
 * The PHP string built-ins the plugin relies on, stated over `string` (a sequence of
 * characters): truthiness, `strpos(...) === 0`, `rtrim`/`ltrim`/`trim`, `basename`,
 * `dirname`, `explode`/`implode`, `strtolower`, integer-to-string conversion and `intval`.
 */
module PhpBuiltins {

  /** PHP's truthiness of a string: `""` and `"0"` are the falsy ones (`empty()`, `if ($s)`). */
  predicate Truthy(s: string) {
    s != "" && s != "0"
  }

  /** `strpos($s, $prefix) === 0`. */
  predicate StartsWith(s: string, prefix: string) {
    |prefix| <= |s| && s[..|prefix|] == prefix
  }

  /** `rtrim($s, $cut)`: drop trailing characters drawn from `cut`. */
  function RTrim(s: string, cut: set<char>): (r: string)
    ensures |r| <= |s| && r == s[..|r|]
    ensures r == [] || r[|r| - 1] !in cut
    ensures forall i :: |r| <= i < |s| ==> s[i] in cut
    decreases |s|
  {
    if |s| > 0 && s[|s| - 1] in cut then RTrim(s[..|s| - 1], cut) else s
  }

  /** `ltrim($s, $cut)`: drop leading characters drawn from `cut`. */
  function LTrim(s: string, cut: set<char>): (r: string)
    ensures |r| <= |s|
    ensures r == [] || r[0] !in cut
    ensures forall i :: 0 <= i < |s| - |r| ==> s[i] in cut
    decreases |s|
  {
    if |s| > 0 && s[0] in cut then LTrim(s[1..], cut) else s
  }

  /** What `ltrim` leaves is the tail of `s`: only leading characters are dropped. */
  lemma {:induction false} LTrimIsSuffix(s: string, cut: set<char>)
    ensures LTrim(s, cut) == s[|s| - |LTrim(s, cut)|..]
    decreases |s|
  {
    if |s| > 0 && s[0] in cut {
      LTrimIsSuffix(s[1..], cut);
    }
  }

  /** The characters `trim()` strips by default: space, tab, newline, carriage return, NUL, vertical tab. */
  const TrimCharacters: set<char> := {' ', '\t', '\n', '\r', '\0', '\U{B}'}

  /** `r` is `s` with blanks dropped from both ends and nothing else removed. */
  predicate MiddleOf(r: string, s: string, cut: set<char>) {
    exists a, b :: 0 <= a <= b <= |s| && r == s[a..b]
      && (forall k :: 0 <= k < a ==> s[k] in cut)
      && (forall k :: b <= k < |s| ==> s[k] in cut)
  }

  /** `trim($s)`: the middle of `s` left once blanks are dropped from both ends. */
  function Trim(s: string): (r: string)
    ensures r == [] || (r[0] !in TrimCharacters && r[|r| - 1] !in TrimCharacters)
    ensures MiddleOf(r, s, TrimCharacters)
  {
    TrimBy(s, TrimCharacters)
  }

  /** `trim($s, $cut)`: `rtrim` then `ltrim` with the same set. */
  function TrimBy(s: string, cut: set<char>): (r: string)
    ensures r == [] || (r[0] !in cut && r[|r| - 1] !in cut)
    ensures MiddleOf(r, s, cut)
  {
    var right := RTrim(s, cut);
    var r := LTrim(right, cut);
    LTrimIsSuffix(right, cut);
    TrimEnds(s, cut, right, r);
    r
  }

  /** The two trims compose: what is left after both is a middle of `s` with clean ends. */
  lemma TrimEnds(s: string, cut: set<char>, right: string, r: string)
    requires |right| <= |s| && right == s[..|right|]
    requires forall i :: |right| <= i < |s| ==> s[i] in cut
    requires |r| <= |right| && r == right[|right| - |r|..]
    requires forall i :: 0 <= i < |right| - |r| ==> right[i] in cut
    requires right == [] || right[|right| - 1] !in cut
    requires r == [] || r[0] !in cut
    ensures r == [] || (r[0] !in cut && r[|r| - 1] !in cut)
    ensures MiddleOf(r, s, cut)
  {
    var a, b := |right| - |r|, |right|;
    if r != [] { assert r[|r| - 1] == right[|right| - 1]; }
    assert r == s[a..b];
    assert forall k :: 0 <= k < a ==> s[k] == right[k];
  }

  /** Position of the last occurrence of `c`, or -1. */
  function LastIndexOf(s: string, c: char): (i: int)
    ensures -1 <= i < |s|
    ensures 0 <= i ==> s[i] == c
    ensures forall j :: i < j < |s| ==> s[j] != c
  {
    if |s| == 0 then -1
    else if s[|s| - 1] == c then |s| - 1
    else LastIndexOf(s[..|s| - 1], c)
  }

  /** `LastIndexOf` finds a character exactly when it occurs, and nothing follows it but other characters. */
  lemma LastIndexOfOccurrence(s: string, c: char)
    ensures c !in s <==> LastIndexOf(s, c) == -1
    ensures c in s ==> c !in s[LastIndexOf(s, c) + 1..]
  {
    var i := LastIndexOf(s, c);
    if c in s {
      var j :| 0 <= j < |s| && s[j] == c;
      assert i >= j;
      var tail := s[i + 1..];
      assert forall k :: 0 <= k < |tail| ==> tail[k] == s[i + 1 + k];
    }
  }

  /** Position of the first occurrence of `c`, or -1. */
  function IndexOf(s: string, c: char): (i: int)
    ensures -1 <= i < |s|
    ensures 0 <= i ==> s[i] == c
    ensures forall j :: 0 <= j < |s| && (i < 0 || j < i) ==> s[j] != c
  {
    if |s| == 0 then -1
    else if s[0] == c then 0
    else
      var k := IndexOf(s[1..], c);
      if k < 0 then -1 else k + 1
  }

  /** The text after the last `c` in `s`, or all of `s` when `c` does not occur. */
  function AfterLast(s: string, c: char): (r: string)
    ensures |r| <= |s| && forall i :: 0 <= i < |r| ==> r[i] == s[|s| - |r| + i]
    ensures c !in r
    decreases |s|
  {
    if |s| == 0 || s[|s| - 1] == c then [] else AfterLast(s[..|s| - 1], c) + [s[|s| - 1]]
  }

  /** `AfterLast` is the slice that follows `LastIndexOf`: it starts right after that position. */
  lemma {:induction false} AfterLastLength(s: string, c: char)
    ensures |AfterLast(s, c)| == |s| - 1 - LastIndexOf(s, c)
    decreases |s|
  {
    if |s| > 0 && s[|s| - 1] != c {
      AfterLastLength(s[..|s| - 1], c);
    }
  }

  /** A string that matches `s` from position `k` on, character by character, is `s[k..]`. */
  lemma SuffixFrom(r: string, s: string, k: nat)
    requires k <= |s| && |r| == |s| - k
    requires forall i :: 0 <= i < |r| ==> r[i] == s[k + i]
    ensures r == s[k..]
  {
  }

  /** `basename($path)` on '/'-separated paths: the last component, trailing slashes ignored. */
  function Basename(path: string): (r: string)
    ensures '/' !in r
  {
    AfterLast(RTrim(path, {'/'}), '/')
  }

  /** A name without a slash is its own basename. */
  lemma BasenameOfPlainName(path: string)
    requires '/' !in path
    ensures Basename(path) == path
  {
    assert RTrim(path, {'/'}) == path;
    LastIndexOfOccurrence(path, '/');
    AfterLastLength(path, '/');
  }

  lemma BasenameIdempotent(path: string)
    ensures Basename(Basename(path)) == Basename(path)
  {
    BasenameOfPlainName(Basename(path));
  }

  /** `dirname($path)` on '/'-separated paths, as PHP computes it. */
  function Dirname(path: string): (r: string)
    ensures path != [] ==> r != []
    ensures path == [] ==> r == []
  {
    if path == [] then []
    else
      var t := RTrim(path, {'/'});
      if t == [] then "/"
      else
        var i := LastIndexOf(t, '/');
        if i < 0 then "."
        else
          var head := RTrim(t[..i], {'/'});
          if head == [] then "/" else head
  }

  /** `dirname` of a path without a trailing slash is everything before its last slash (when that is not doubled). */
  lemma DirnameAt(path: string, i: nat)
    requires 0 < i < |path|
    requires path[|path| - 1] != '/' && path[i] == '/' && path[i - 1] != '/'
    requires forall j :: i < j < |path| ==> path[j] != '/'
    ensures Dirname(path) == path[..i]
  {
    assert RTrim(path, {'/'}) == path;
    var k := LastIndexOf(path, '/');
    assert k == i;
    assert RTrim(path[..i], {'/'}) == path[..i];
  }

  /** Trimming a string that already ends outside `cut` changes nothing. */
  lemma RTrimIdempotent(s: string, cut: set<char>)
    ensures RTrim(RTrim(s, cut), cut) == RTrim(s, cut)
  {
  }

  /** `dirname` ignores trailing slashes: `dirname("/var/www/html/")` is `dirname("/var/www/html")`. */
  lemma DirnameIgnoresTrailingSlashes(path: string)
    requires RTrim(path, {'/'}) != []
    ensures Dirname(path) == Dirname(RTrim(path, {'/'}))
  {
    RTrimIdempotent(path, {'/'});
  }

  /** One trailing slash after a path that does not end in one is all `rtrim` removes. */
  lemma RTrimOneSlash(t: string)
    requires t != [] && t[|t| - 1] != '/'
    ensures RTrim(t + "/", {'/'}) == t
  {
    assert (t + "/")[..|t|] == t;
  }

  /**
   * The parent of `parent/leaf/`, the shape of a directory path written with its trailing
   * slash, is `parent`.
   */
  lemma DirnameOfDirectory(parent: string, leaf: string)
    requires parent != [] && parent[|parent| - 1] != '/'
    requires leaf != [] && '/' !in leaf
    ensures Dirname(parent + "/" + leaf + "/") == parent
  {
    var t := parent + "/" + leaf;
    assert t[|t| - 1] == leaf[|leaf| - 1];
    RTrimOneSlash(t);
    DirnameIgnoresTrailingSlashes(t + "/");
    var i := |parent|;
    assert t[i] == '/' && t[i - 1] == parent[|parent| - 1];
    assert forall j :: i < j < |t| ==> t[j] == leaf[j - i - 1];
    DirnameAt(t, i);
    assert t[..i] == parent;
  }

  /** `explode($sep, $s)` with a one-character separator. */
  function Explode(s: string, sep: char): (parts: seq<string>)
    ensures |parts| >= 1
    ensures forall k :: 0 <= k < |parts| ==> sep !in parts[k]
    decreases |s|
  {
    var i := IndexOf(s, sep);
    if i < 0 then [s]
    else
      assert forall j :: 0 <= j < i ==> s[..i][j] != sep;
      [s[..i]] + Explode(s[i + 1..], sep)
  }

  /** `implode($sep, $parts)` for a non-empty list of parts. */
  function Implode(parts: seq<string>, sep: char): string
    requires |parts| >= 1
  {
    if |parts| == 1 then parts[0] else parts[0] + [sep] + Implode(parts[1..], sep)
  }

  /** Splitting on a separator and joining back on it gives the original text. */
  lemma {:induction false} ImplodeExplode(s: string, sep: char)
    ensures Implode(Explode(s, sep), sep) == s
    decreases |s|
  {
    var i := IndexOf(s, sep);
    if i >= 0 {
      var head := s[..i];
      var tail := s[i + 1..];
      var rest := Explode(tail, sep);
      assert Explode(s, sep) == [head] + rest;
      ImplodeExplode(tail, sep);
      var parts := [head] + rest;
      assert parts[0] == head && parts[1..] == rest;
      SplitAround(s, i);
      calc {
        Implode(parts, sep);
        head + [sep] + Implode(rest, sep);
        head + [sep] + tail;
        s;
      }
    }
  }

  /** A string is the part before position `i`, the character there, and the part after. */
  lemma SplitAround(s: string, i: nat)
    requires i < |s|
    ensures s[..i] + [s[i]] + s[i + 1..] == s
  {
    assert s[..i] + [s[i]] + s[i + 1..] == s[..i] + s[i..];
  }

  /** `strtolower` on one character: ASCII letters only. */
  function LowerChar(c: char): char {
    if 'A' <= c <= 'Z' then (c as int + 32) as char else c
  }

  function ToLower(s: string): (r: string)
    ensures |r| == |s|
    ensures forall i :: 0 <= i < |s| ==> r[i] == LowerChar(s[i])
  {
    seq(|s|, i requires 0 <= i < |s| => LowerChar(s[i]))
  }

  predicate IsDigit(c: char) {
    '0' <= c <= '9'
  }

  predicate AllDigits(s: string) {
    forall i :: 0 <= i < |s| ==> IsDigit(s[i])
  }

  function DigitChar(d: nat): (c: char)
    requires d < 10
    ensures IsDigit(c)
  {
    ('0' as int + d) as char
  }

  /** The decimal text PHP produces when an integer is used as a string (`$n . ""`). */
  function DecimalDigits(n: nat): (s: string)
    ensures |s| >= 1
    ensures AllDigits(s)
  {
    if n < 10 then [DigitChar(n)] else DecimalDigits(n / 10) + [DigitChar(n % 10)]
  }

  /** Length of the run of decimal digits at the start of `s` (the `\d+` of a regular expression). */
  function LeadingDigitCount(s: string): (n: nat)
    ensures n <= |s|
    ensures AllDigits(s[..n])
    ensures n < |s| ==> !IsDigit(s[n])
  {
    if |s| == 0 || !IsDigit(s[0]) then 0
    else
      var k := LeadingDigitCount(s[1..]);
      assert s[..k + 1] == [s[0]] + s[1..][..k];
      k + 1
  }

  /** The run length is determined by where the digits stop. */
  lemma {:induction false} LeadingDigitCountAt(s: string, k: nat)
    requires k <= |s| && AllDigits(s[..k])
    requires k < |s| ==> !IsDigit(s[k])
    ensures LeadingDigitCount(s) == k
    decreases k
  {
    if k > 0 {
      assert s[..k][0] == s[0];
      var tail := s[1..];
      assert tail[..k - 1] == s[..k][1..];
      assert k - 1 < |tail| ==> tail[k - 1] == s[k];
      LeadingDigitCountAt(tail, k - 1);
    }
  }

  /** The whitespace `intval` skips before the number. */
  const IntValSpace: set<char> := {' ', '\t', '\n', '\r', '\U{B}', '\U{C}'}

  /**
   * `intval($s)` for a string: leading whitespace is skipped, then an optional sign, then the
   * longest run of decimal digits is read; no digits read as 0.
   */
  function IntVal(s: string): int
    decreases |s|
  {
    if |s| > 0 && s[0] in IntValSpace then IntVal(s[1..])
    else if |s| > 0 && s[0] == '-' then -(DigitRunValue(s[1..], 0) as int)
    else if |s| > 0 && s[0] == '+' then DigitRunValue(s[1..], 0)
    else DigitRunValue(s, 0)
  }

  /** The digits at the start of `s` appended, in decimal, to `acc`; reading stops at the first non-digit. */
  function DigitRunValue(s: string, acc: nat): nat
    decreases |s|
  {
    if |s| > 0 && IsDigit(s[0]) then DigitRunValue(s[1..], acc * 10 + (s[0] as int - '0' as int)) else acc
  }

  /** One more digit at the end of a digit run shifts the value one decimal place. */
  lemma {:induction false} DigitRunAppend(s: string, c: char, acc: nat)
    requires AllDigits(s) && IsDigit(c)
    ensures DigitRunValue(s + [c], acc) == DigitRunValue(s, acc) * 10 + (c as int - '0' as int)
    decreases |s|
  {
    if s == [] {
      assert s + [c] == [c];
      assert [c][1..] == [];
    } else {
      assert (s + [c])[1..] == s[1..] + [c];
      DigitRunAppend(s[1..], c, acc * 10 + (s[0] as int - '0' as int));
    }
  }

  /** Reading the decimal text of `n` as a digit run gives `n`. */
  lemma {:induction false} DigitRunOfDecimal(n: nat)
    ensures DigitRunValue(DecimalDigits(n), 0) == n
  {
    if n < 10 {
      assert DecimalDigits(n)[1..] == [];
    } else {
      DigitRunOfDecimal(n / 10);
      DigitRunAppend(DecimalDigits(n / 10), DigitChar(n % 10), 0);
    }
  }

  /** Converting a natural number to text and back with `intval` gives the number. */
  lemma IntValOfDecimal(n: nat)
    ensures IntVal(DecimalDigits(n)) == n
  {
    var s := DecimalDigits(n);
    assert IsDigit(s[0]);
    assert s[0] !in IntValSpace && s[0] != '-' && s[0] != '+';
    DigitRunOfDecimal(n);
  }
}

=== FILE: rate_limit.dfy ===
/**
 * The upload rate limiter: a counter per (user ID, hour bucket), kept in transients under
 * the key `cdm_uploads_{user}_{floor(now / 3600)}`, with at most `CDM_MAX_UPLOADS_PER_HOUR`
 * uploads admitted per bucket.
 */
module RateLimit {

  /** `CDM_MAX_UPLOADS_PER_HOUR`. */
  const MaxUploadsPerHour: nat := 20

  const SecondsPerHour: nat := 3600

  /** The two parts of a rate-limit transient's name. */
  datatype RateKey = RateKey(userId: int, hourBucket: nat)

  /** The key for a user at a Unix time. */
  function KeyFor(userId: int, now: nat): (k: RateKey)
    ensures k.userId == userId
    ensures k.hourBucket * SecondsPerHour <= now < (k.hourBucket + 1) * SecondsPerHour
  {
    RateKey(userId, now / SecondsPerHour)
  }

  /** Two times in the same clock hour share a bucket; times an hour or more apart never do. */
  lemma SameHourSameKey(userId: int, t1: nat, t2: nat)
    ensures KeyFor(userId, t1) == KeyFor(userId, t2) <==> t1 / SecondsPerHour == t2 / SecondsPerHour
    ensures t1 + SecondsPerHour <= t2 ==> KeyFor(userId, t1) != KeyFor(userId, t2)
  {
    var k1 := KeyFor(userId, t1);
    var k2 := KeyFor(userId, t2);
    if t1 + SecondsPerHour <= t2 {
      assert k1.hourBucket < k2.hourBucket;
    }
  }

  /** `(int) get_transient($rate_key)`: a missing counter reads as 0. */
  function CountIn(counts: map<RateKey, nat>, key: RateKey): nat {
    if key in counts then counts[key] else 0
  }

  /** `after` is `before` with the counter of `key` raised by one and every other counter kept. */
  predicate BumpedAt(before: map<RateKey, nat>, after: map<RateKey, nat>, key: RateKey) {
    after == before[key := CountIn(before, key) + 1]
  }

  /** No bucket of `counts` holds more than the hourly limit. */
  predicate WithinHourlyLimit(counts: map<RateKey, nat>) {
    forall k {:trigger CountIn(counts, k)} :: k in counts ==> CountIn(counts, k) <= MaxUploadsPerHour
  }

  /** `$upload_count >= CDM_MAX_UPLOADS_PER_HOUR` refuses: room means the counter is below the limit. */
  predicate RoomIn(counts: map<RateKey, nat>, key: RateKey) {
    CountIn(counts, key) < MaxUploadsPerHour
  }

  /** One more upload in a bucket that had room keeps every bucket within the limit. */
  lemma BumpKeepsLimit(counts: map<RateKey, nat>, key: RateKey)
    requires WithinHourlyLimit(counts) && RoomIn(counts, key)
    ensures WithinHourlyLimit(counts[key := CountIn(counts, key) + 1])
  {
    var bumped := counts[key := CountIn(counts, key) + 1];
    forall k | k in bumped
      ensures CountIn(bumped, k) <= MaxUploadsPerHour
    {
      if k != key {
        assert CountIn(bumped, k) == CountIn(counts, k);
      }
    }
  }

  /** The transient store of upload counters. */
  class Counters {
    var counts: map<RateKey, nat>

    constructor ()
      ensures counts == map[]
    {
      counts := map[];
    }

    /** The counter of one bucket. */
    function Count(key: RateKey): nat
      reads this
    {
      CountIn(counts, key)
    }

    /** No bucket holds more than the hourly limit. */
    predicate Bounded()
      reads this
    {
      WithinHourlyLimit(counts)
    }

    /** Whether one more upload may start in this bucket (`$upload_count >= LIMIT` refuses). */
    function HasRoom(key: RateKey): (room: bool)
      reads this
      ensures room <==> Count(key) < MaxUploadsPerHour
      ensures Bounded() && !room ==> Count(key) == MaxUploadsPerHour
    {
      Count(key) < MaxUploadsPerHour
    }

    /** `set_transient($rate_key, $upload_count + 1, HOUR_IN_SECONDS)`. */
    method Bump(key: RateKey)
      modifies this
      ensures counts == old(counts)[key := CountIn(old(counts), key) + 1]
      ensures Count(key) == old(Count(key)) + 1
      ensures forall k :: k != key ==> Count(k) == old(Count(k))
      ensures old(Bounded()) && old(HasRoom(key)) ==> Bounded()
    {
      if Bounded() && HasRoom(key) {
        BumpKeepsLimit(counts, key);
      }
      counts := counts[key := Count(key) + 1];
    }
  }
}

=== FILE: settings.dfy ===
/**
 * The plugin's options (upload root, maximum file size, allowed extensions): how they read
 * with their defaults, how the settings page saves them, the path suggestion it shows,
 * and the activation hook that prepares the upload root.
 *
 * Options hold text, except the size, which the form saves as an integer and every reader
 * reads as a number.
 */
module Settings {
  import opened Wrappers
  import opened PhpBuiltins
  import opened Validation
  import opened Storage

  const UploadRootOption: string := "cdm_upload_root"
  const MaxFileSizeOption: string := "cdm_max_file_size"
  const AllowedTypesOption: string := "cdm_allowed_types"

  /** The options the settings form writes. */
  const SettingsFields: set<string> := {UploadRootOption, MaxFileSizeOption, AllowedTypesOption}

  /** The three option names are distinct, so saving one never touches another. */
  lemma FieldsDistinct()
    ensures UploadRootOption != MaxFileSizeOption
    ensures UploadRootOption != AllowedTypesOption
    ensures MaxFileSizeOption != AllowedTypesOption
  {
    assert |UploadRootOption| != |MaxFileSizeOption|;
    assert |UploadRootOption| != |AllowedTypesOption|;
    assert MaxFileSizeOption[4] != AllowedTypesOption[4];
  }

  const MinFileSizeMb: int := 1
  const MaxFileSizeMb: int := 100

  const UploadFolderName: string := "/client-docs"

  /** `max(1, min(100, $x))`. */
  function ClampSize(x: int): (r: nat)
    ensures MinFileSizeMb <= r <= MaxFileSizeMb
    ensures MinFileSizeMb <= x <= MaxFileSizeMb ==> r == x
    ensures x < MinFileSizeMb ==> r == MinFileSizeMb
    ensures x > MaxFileSizeMb ==> r == MaxFileSizeMb
  {
    if x < MinFileSizeMb then MinFileSizeMb
    else if x > MaxFileSizeMb then MaxFileSizeMb
    else x
  }

  /** Clamping a value already clamped changes nothing. */
  lemma ClampIdempotent(x: int)
    ensures ClampSize(ClampSize(x)) == ClampSize(x)
  {
  }

  /**
   * A value of the options table: text, or the integer `update_option` was given. A number
   * is what `get_option` hands back for the rest of the request; once reloaded from the
   * database it is its decimal text, which `intval` turns back into the same number.
   */
  datatype OptionValue = Text(text: string) | Number(number: int)

  /** The value as a string, as PHP converts an integer. */
  function AsText(v: OptionValue): string {
    match v
    case Text(t) => t
    case Number(n) => if n >= 0 then DecimalDigits(n) else "-" + DecimalDigits(-n)
  }

  /** The value as `intval` reads it. */
  function AsInt(v: OptionValue): int {
    match v
    case Text(t) => IntVal(t)
    case Number(n) => n
  }

  /** The value the settings form saves for a submitted size: the clamped `intval` of the field. */
  function SavedSize(field: string): (v: OptionValue)
    ensures v.Number? && MinFileSizeMb <= v.number <= MaxFileSizeMb
  {
    Number(ClampSize(IntVal(field)))
  }

  /**
   * A saved size reads back as the clamped value whether it is still the integer or has been
   * reloaded as its decimal text, so the limit always lies in [1, 100].
   */
  lemma SavedSizeReadsBack(field: string)
    ensures AsInt(SavedSize(field)) == ClampSize(IntVal(field))
    ensures IntVal(AsText(SavedSize(field))) == ClampSize(IntVal(field))
    ensures MinFileSizeMb <= AsInt(SavedSize(field)) <= MaxFileSizeMb
  {
    IntValOfDecimal(ClampSize(IntVal(field)));
  }

  /** `dirname(ABSPATH) . '/client-docs'`: the upload root when none was saved. */
  function DefaultUploadRoot(abspath: string): (r: Path)
    ensures abspath != [] ==> |r| > |UploadFolderName| && r[|r| - |UploadFolderName|..] == UploadFolderName
  {
    var r := Dirname(abspath) + UploadFolderName;
    assert r[|r| - |UploadFolderName|..] == UploadFolderName;
    r
  }

  /**
   * `ABSPATH` is a directory written with its trailing slash, `parent/leaf/`; the default root
   * is then a sibling of the WordPress directory, `parent/client-docs`.
   */
  lemma DefaultRootIsSiblingOfInstall(parent: string, leaf: string)
    requires parent != [] && parent[|parent| - 1] != '/'
    requires leaf != [] && '/' !in leaf
    ensures DefaultUploadRoot(parent + "/" + leaf + "/") == parent + UploadFolderName
  {
    DirnameOfDirectory(parent, leaf);
  }

  /** WordPress installed in `/var/www/html/` gets `/var/www/client-docs` by default. */
  lemma DefaultRootForVarWwwHtml()
    ensures DefaultUploadRoot("/var/www/html/") == "/var/www/client-docs"
  {
    var parent, leaf := "/var/www", "html";
    assert parent[|parent| - 1] == 'w';
    assert '/' !in leaf;
    assert "/var/www/html/" == parent + "/" + leaf + "/";
    DefaultRootIsSiblingOfInstall(parent, leaf);
  }

  /**
   * The settings page's suggestion: `dirname($doc_root) . '/client-docs'` when the document
   * root and its parent are both truthy strings, and the empty string otherwise.
   */
  function SuggestedPath(docRoot: string): (r: string)
    ensures !Truthy(docRoot) ==> r == ""
    ensures Truthy(docRoot) && Truthy(Dirname(docRoot)) ==> r == Dirname(docRoot) + UploadFolderName
    ensures Truthy(docRoot) && !Truthy(Dirname(docRoot)) ==> r == ""
    ensures r != "" ==> Truthy(docRoot)
  {
    var parent := if Truthy(docRoot) then Dirname(docRoot) else "";
    if Truthy(parent) then parent + UploadFolderName else ""
  }

  /** A web root directly under a folder named `0` gets no suggestion, since `"0"` is falsy. */
  lemma SuggestionSkipsFalsyParent()
    ensures SuggestedPath("0/www") == ""
  {
    var docRoot := "0/www";
    DirnameAt(docRoot, 1);
    assert docRoot[..1] == "0";
  }

  /** A typical web root gets its sibling folder. */
  lemma SuggestionForWebRoot()
    ensures SuggestedPath("/srv/www") == "/srv" + UploadFolderName
  {
    var docRoot := "/srv/www";
    DirnameAt(docRoot, 4);
    assert docRoot[..4] == "/srv";
  }

  /** `get_option($name)` without a default: the stored value, if any. */
  function Get(stored: map<string, OptionValue>, name: string): Option<OptionValue> {
    if name in stored then Some(stored[name]) else None
  }

  /** `get_option('cdm_upload_root', dirname(ABSPATH) . '/client-docs')`. */
  function UploadRoot(stored: map<string, OptionValue>, abspath: string): (root: Path)
    ensures Get(stored, UploadRootOption).None? ==> root == DefaultUploadRoot(abspath)
    ensures forall t :: Get(stored, UploadRootOption) == Some(Text(t)) ==> root == t
  {
    if UploadRootOption in stored then AsText(stored[UploadRootOption]) else DefaultUploadRoot(abspath)
  }

  /** `get_option('cdm_max_file_size', 50)`, read as an integer. */
  function MaxFileSize(stored: map<string, OptionValue>): (mb: int)
    ensures Get(stored, MaxFileSizeOption).None? ==> mb == DefaultMaxFileSizeMb
  {
    if MaxFileSizeOption in stored then AsInt(stored[MaxFileSizeOption]) else DefaultMaxFileSizeMb
  }

  /** `get_option('cdm_allowed_types', 'pdf,doc,…,zip')`. */
  function AllowedTypes(stored: map<string, OptionValue>): (types: string)
    ensures Get(stored, AllowedTypesOption).None? ==> types == DefaultAllowedTypes
    ensures forall t :: Get(stored, AllowedTypesOption) == Some(Text(t)) ==> types == t
  {
    if AllowedTypesOption in stored then AsText(stored[AllowedTypesOption]) else DefaultAllowedTypes
  }

  /** The two settings `cdm_validate_upload` reads. */
  function CurrentPolicy(stored: map<string, OptionValue>): (p: Policy)
    ensures p.maxFileSizeMb == MaxFileSize(stored) && p.allowedTypes == AllowedTypes(stored)
  {
    Policy(MaxFileSize(stored), AllowedTypes(stored))
  }

  /** Once a size has been saved, the validator's limit is its clamped `intval`, within [1, 100]. */
  lemma SavedSizeIsPolicy(stored: map<string, OptionValue>, field: string)
    requires Get(stored, MaxFileSizeOption) == Some(SavedSize(field))
    ensures CurrentPolicy(stored).maxFileSizeMb == ClampSize(IntVal(field))
    ensures MinFileSizeMb <= CurrentPolicy(stored).maxFileSizeMb <= MaxFileSizeMb
  {
    SavedSizeReadsBack(field);
  }

  /** The options table, as far as the plugin uses it. */
  class Options {
    var stored: map<string, OptionValue>

    constructor ()
      ensures stored == map[]
    {
      stored := map[];
    }

    /**
     * The settings page handler: a user without `manage_options` is turned away (`wp_die`)
     * and nothing is written, nor is it without a verified nonce; then each option whose
     * field was submitted is updated — the path and the types through the text sanitizer, the
     * size as its clamped `intval` — and every other option is left as it was.
     */
    method SaveSettings(canManage: bool, nonceOk: bool, form: map<string, string>, sanitizeText: string -> string)
      modifies this
      ensures forall name :: name !in SettingsFields ==> Get(stored, name) == Get(old(stored), name)
      ensures !canManage ==> stored == old(stored)
      ensures !nonceOk ==> stored == old(stored)
      ensures canManage && nonceOk && UploadRootOption in form ==> Get(stored, UploadRootOption) == Some(Text(sanitizeText(form[UploadRootOption])))
      ensures canManage && nonceOk && MaxFileSizeOption in form ==> Get(stored, MaxFileSizeOption) == Some(SavedSize(form[MaxFileSizeOption]))
      ensures canManage && nonceOk && AllowedTypesOption in form ==> Get(stored, AllowedTypesOption) == Some(Text(sanitizeText(form[AllowedTypesOption])))
      ensures UploadRootOption !in form ==> Get(stored, UploadRootOption) == Get(old(stored), UploadRootOption)
      ensures MaxFileSizeOption !in form ==> Get(stored, MaxFileSizeOption) == Get(old(stored), MaxFileSizeOption)
      ensures AllowedTypesOption !in form ==> Get(stored, AllowedTypesOption) == Get(old(stored), AllowedTypesOption)
    {
      FieldsDistinct();
      if !canManage || !nonceOk {
        return;
      }
      SaveText(form, UploadRootOption, sanitizeText);
      SaveSize(form);
      SaveText(form, AllowedTypesOption, sanitizeText);
    }

    /** `if (isset($_POST[$name])) update_option($name, sanitize_text_field(…))`. */
    method SaveText(form: map<string, string>, name: string, sanitizeText: string -> string)
      modifies this
      ensures name in form ==> Get(stored, name) == Some(Text(sanitizeText(form[name])))
      ensures name !in form ==> stored == old(stored)
      ensures forall other :: other != name ==> Get(stored, other) == Get(old(stored), other)
    {
      if name in form {
        stored := stored[name := Text(sanitizeText(form[name]))];
      }
    }

    /** The size field: saved as its clamped `intval`. */
    method SaveSize(form: map<string, string>)
      modifies this
      ensures MaxFileSizeOption in form ==> Get(stored, MaxFileSizeOption) == Some(SavedSize(form[MaxFileSizeOption]))
      ensures MaxFileSizeOption !in form ==> stored == old(stored)
      ensures forall other :: other != MaxFileSizeOption ==> Get(stored, other) == Get(old(stored), other)
    {
      if MaxFileSizeOption in form {
        stored := stored[MaxFileSizeOption := SavedSize(form[MaxFileSizeOption])];
      }
    }
  }

  /**
   * The activation hook: create the configured upload root if it is missing, then protect it
   * (the protection also runs when the root already existed).
   */
  method Activate(fs: FileSystem, options: Options, abspath: string)
    modifies fs
    ensures var root := UploadRoot(options.stored, abspath);
      && fs.dirs == old(fs.dirs) + (if old(fs.Exists(root)) then {} else Ancestors(root))
      && fs.files == WithProtection(fs.dirs, old(fs.files), old(fs.metadataFiles.Keys), root)
      && fs.metadataFiles == old(fs.metadataFiles)
      && fs.Exists(root)
      && fs.Exists(Join(root, HtaccessName)) && fs.Exists(Join(root, IndexName))
  {
    var root := UploadRoot(options.stored, abspath);
    if !fs.Exists(root) {
      fs.MakeDirs(root);
    }
    fs.ProtectUploadDir(root);
  }
}

=== FILE: storage.dfy ===
/**
 * The file store: directories, regular files, and the per-user metadata files (kept
 * decoded), with the operations the handlers perform on them — `file_exists`,
 * deleting a file, writing a metadata file, `wp_mkdir_p` — and `cdm_protect_upload_dir`.
 *
 * Paths are compared as strings; `..`, symbolic links and repeated slashes are not
 * resolved here (the handlers take `realpath` as a parameter where they use it).
 */
module Storage {
  import opened PhpBuiltins
  import opened Metadata

  type Path = string

  const MetadataFileName: string := "file-metadata.json"
  const HtaccessName: string := ".htaccess"
  const IndexName: string := "index.php"

  /** The deny-all rules written to `.htaccess` (Apache 2.4 and 2.2 syntax). */
  const HtaccessRules: string :=
    "# Deny direct file access\n" +
    "<IfModule mod_authz_core.c>\n" +
    "    Require all denied\n" +
    "</IfModule>\n" +
    "<IfModule !mod_authz_core.c>\n" +
    "    Order deny,allow\n" +
    "    Deny from all\n" +
    "</IfModule>\n"

  const IndexStub: string := "<?php // Silence is golden\n"

  /** `$dir . '/' . $name`. */
  function Join(dir: Path, name: string): Path {
    dir + "/" + name
  }

  /** WordPress `trailingslashit`: strip trailing `/` and `\`, then append one `/`. */
  function TrailingSlashIt(p: Path): (r: Path)
    ensures |r| > 0 && r[|r| - 1] == '/'
  {
    RTrim(p, {'/', '\\'}) + "/"
  }

  /** `trailingslashit(CDM_UPLOAD_ROOT) . $username`. */
  function UserDir(root: Path, sanitizedLogin: string): (r: Path)
    ensures StartsWith(r, TrailingSlashIt(root))
  {
    var r := TrailingSlashIt(root) + sanitizedLogin;
    assert r[..|TrailingSlashIt(root)|] == TrailingSlashIt(root);
    r
  }

  function MetadataPath(userDir: Path): Path {
    Join(userDir, MetadataFileName)
  }

  /** Joining distinct names to the same directory gives distinct paths. */
  lemma JoinInjective(dir: Path, a: string, b: string)
    requires Join(dir, a) == Join(dir, b)
    ensures a == b
  {
    assert a == Join(dir, a)[|dir| + 1..];
    assert b == Join(dir, b)[|dir| + 1..];
  }

  /** A directory and the directories above it, as `wp_mkdir_p` creates them. */
  function Ancestors(p: Path): (r: set<Path>)
    ensures p in r
  {
    {p} + set i | 0 < i < |p| && p[i] == '/' :: p[..i]
  }

  /** `file_exists`: a directory, a regular file or a metadata file at that path. */
  predicate ExistsIn(dirs: set<Path>, files: set<Path>, metas: set<Path>, p: Path) {
    p in dirs || p in files || p in metas
  }

  /** The regular files after `cdm_protect_upload_dir(dir)`. */
  function WithProtection(dirs: set<Path>, files: map<Path, string>, metas: set<Path>, dir: Path): (r: map<Path, string>)
    ensures forall p :: p in files ==> p in r && r[p] == files[p]
    ensures r.Keys <= files.Keys + {Join(dir, HtaccessName), Join(dir, IndexName)}
    ensures !ExistsIn(dirs, files.Keys, metas, dir) ==> r == files
    ensures ExistsIn(dirs, files.Keys, metas, dir) ==>
      ExistsIn(dirs, r.Keys, metas, Join(dir, HtaccessName)) && ExistsIn(dirs, r.Keys, metas, Join(dir, IndexName))
    ensures ExistsIn(dirs, files.Keys, metas, dir) && !ExistsIn(dirs, files.Keys, metas, Join(dir, HtaccessName)) ==>
      r[Join(dir, HtaccessName)] == HtaccessRules
    ensures ExistsIn(dirs, files.Keys, metas, dir) && !ExistsIn(dirs, files.Keys, metas, Join(dir, IndexName)) ==>
      r[Join(dir, IndexName)] == IndexStub
  {
    var ht := Join(dir, HtaccessName);
    var idx := Join(dir, IndexName);
    assert ht != idx by {
      if ht == idx { JoinInjective(dir, HtaccessName, IndexName); }
    }
    if !ExistsIn(dirs, files.Keys, metas, dir) then files
    else
      var withHt := if ExistsIn(dirs, files.Keys, metas, ht) then files else files[ht := HtaccessRules];
      if ExistsIn(dirs, withHt.Keys, metas, idx) then withHt else withHt[idx := IndexStub]
  }

  /** Protecting a directory twice leaves it as protecting it once. */
  lemma ProtectIdempotent(dirs: set<Path>, files: map<Path, string>, metas: set<Path>, dir: Path)
    ensures WithProtection(dirs, WithProtection(dirs, files, metas, dir), metas, dir) == WithProtection(dirs, files, metas, dir)
  {
    var once := WithProtection(dirs, files, metas, dir);
    var twice := WithProtection(dirs, once, metas, dir);
    assert twice.Keys == once.Keys;
  }

  class FileSystem {
    var dirs: set<Path>
    var files: map<Path, string>
    /** Each metadata file, decoded; a missing or unreadable one is not in the map. */
    var metadataFiles: map<Path, MetadataMap>

    constructor ()
      ensures dirs == {} && files == map[] && metadataFiles == map[]
    {
      dirs := {};
      files := map[];
      metadataFiles := map[];
    }

    predicate Exists(p: Path)
      reads this
    {
      ExistsIn(dirs, files.Keys, metadataFiles.Keys, p)
    }

    /** The metadata of a user directory; an absent or malformed file reads as empty. */
    function MetadataOf(userDir: Path): MetadataMap
      reads this
    {
      var mp := MetadataPath(userDir);
      if mp in metadataFiles then metadataFiles[mp] else map[]
    }

    /** `wp_delete_file`: unlink a file; a directory is left in place. */
    method Remove(p: Path)
      modifies this
      ensures dirs == old(dirs)
      ensures files == old(files) - {p}
      ensures metadataFiles == old(metadataFiles) - {p}
    {
      files := files - {p};
      metadataFiles := metadataFiles - {p};
    }

    /** `move_uploaded_file`: the upload's content is placed at `p`, replacing what was there. */
    method PlaceFile(p: Path, content: string)
      modifies this
      ensures dirs == old(dirs) && metadataFiles == old(metadataFiles)
      ensures files == old(files)[p := content]
    {
      files := files[p := content];
    }

    /** `file_put_contents($meta_file, json_encode($metadata))`. */
    method WriteMetadata(userDir: Path, m: MetadataMap)
      modifies this
      ensures dirs == old(dirs) && files == old(files)
      ensures metadataFiles == old(metadataFiles)[MetadataPath(userDir) := m]
      ensures MetadataOf(userDir) == m
    {
      metadataFiles := metadataFiles[MetadataPath(userDir) := m];
    }

    /** `wp_mkdir_p`: the directory and every directory above it exist afterwards. */
    method MakeDirs(p: Path)
      modifies this
      ensures dirs == old(dirs) + Ancestors(p)
      ensures files == old(files) && metadataFiles == old(metadataFiles)
    {
      dirs := dirs + Ancestors(p);
    }

    /**
     * `cdm_protect_upload_dir`: when `dir` exists, write the deny-all `.htaccess` and the
     * silent `index.php` into it, each only if nothing is at that path yet.
     */
    method ProtectUploadDir(dir: Path)
      modifies this
      ensures dirs == old(dirs) && metadataFiles == old(metadataFiles)
      ensures files == WithProtection(old(dirs), old(files), old(metadataFiles.Keys), dir)
    {
      if !Exists(dir) {
        return;
      }
      var htaccess := Join(dir, HtaccessName);
      if !Exists(htaccess) {
        files := files[htaccess := HtaccessRules];
      }
      var index := Join(dir, IndexName);
      if !Exists(index) {
        files := files[index := IndexStub];
      }
    }
  }
}

=== FILE: uploads.dfy ===
/**
 * What the client and the admin upload handlers share: creating a user's directory on
 * first use, the gate of rate limit then validation, and the path an upload is stored at.
 */
module Uploads {
  import opened Wrappers
  import opened PhpBuiltins
  import opened Naming
  import opened Validation
  import opened Storage
  import opened Metadata
  import opened RateLimit

  /** How an upload request ended; `Uploaded` carries the stored name. */
  datatype UploadOutcome =
    | NoUpload
    | SecurityFailed
    | RateLimited
    | Rejected(error: UploadError)
    | MoveFailed
    | Uploaded(storedName: string)

  /**
   * How an upload that got past its handler's own checks ends: the counter refuses, else the
   * validator refuses with its first failing check, else the move fails, else it is stored.
   */
  function GateOutcome(hasRoom: bool, f: UploadCandidate, policy: Policy, moved: bool, now: nat): (o: UploadOutcome)
    ensures o.Uploaded? <==> hasRoom && Acceptable(f, policy) && moved
    ensures o.Uploaded? ==> o.storedName == StoredName(now, f.name)
    ensures o == RateLimited <==> !hasRoom
    ensures o.Rejected? <==> hasRoom && !Acceptable(f, policy)
  {
    if !hasRoom then RateLimited
    else if !Acceptable(f, policy) then Rejected(FirstFailure(f, policy))
    else if !moved then MoveFailed
    else Uploaded(StoredName(now, f.name))
  }

  /** `$user_dir . "/" . $timestamp . "-" . basename($name)`. */
  function StoredPath(userDir: Path, now: nat, uploadName: string): (p: Path)
    ensures StartsWith(p, userDir + "/")
  {
    var p := Join(userDir, StoredName(now, uploadName));
    assert p[..|userDir + "/"|] == userDir + "/";
    p
  }

  /**
   * A stored upload never lands on the folder's metadata file: the stored name starts with
   * the timestamp's digits, and `file-metadata.json` does not.
   */
  lemma StoredPathIsNotMetadata(userDir: Path, now: nat, uploadName: string)
    ensures StoredPath(userDir, now, uploadName) != MetadataPath(userDir)
  {
    var stored := StoredName(now, uploadName);
    assert stored != MetadataFileName by {
      var k :| 0 < k < |stored| && stored[k] == '-' && AllDigits(stored[..k]);
      assert IsDigit(stored[0]);
    }
    if StoredPath(userDir, now, uploadName) == MetadataPath(userDir) {
      JoinInjective(userDir, stored, MetadataFileName);
    }
  }

  /** The directories after `if (!file_exists($user_dir)) wp_mkdir_p($user_dir)`. */
  function DirsAfterEnsure(dirs: set<Path>, files: set<Path>, metas: set<Path>, userDir: Path): (r: set<Path>)
    ensures dirs <= r
    ensures userDir in r || ExistsIn(dirs, files, metas, userDir)
  {
    if ExistsIn(dirs, files, metas, userDir) then dirs else dirs + Ancestors(userDir)
  }

  /** The regular files after the same step and `cdm_protect_upload_dir(CDM_UPLOAD_ROOT)` on creation. */
  function FilesAfterEnsure(dirs: set<Path>, files: map<Path, string>, metas: set<Path>, userDir: Path, root: Path): map<Path, string>
  {
    if ExistsIn(dirs, files.Keys, metas, userDir) then files
    else WithProtection(dirs + Ancestors(userDir), files, metas, root)
  }

  /**
   * Create a missing user directory and protect the upload root; an existing path is left
   * alone (client-functions.php lines 40-43, admin-functions.php lines 111-114).
   */
  method EnsureUserDir(fs: FileSystem, userDir: Path, root: Path)
    modifies fs
    ensures fs.dirs == DirsAfterEnsure(old(fs.dirs), old(fs.files.Keys), old(fs.metadataFiles.Keys), userDir)
    ensures fs.files == FilesAfterEnsure(old(fs.dirs), old(fs.files), old(fs.metadataFiles.Keys), userDir, root)
    ensures fs.metadataFiles == old(fs.metadataFiles)
    ensures fs.Exists(userDir)
  {
    if !fs.Exists(userDir) {
      fs.MakeDirs(userDir);
      fs.ProtectUploadDir(root);
    }
  }

  /**
   * The gate before a file is moved into place: the hour's counter must be below the limit,
   * then the validator must accept the file. Nothing is written.
   */
  method Admit(counters: Counters, key: RateKey, f: UploadCandidate, policy: Policy) returns (refusal: Option<UploadOutcome>)
    ensures refusal.None? <==> counters.HasRoom(key) && Acceptable(f, policy)
    ensures !counters.HasRoom(key) ==> refusal == Some(RateLimited)
    ensures counters.HasRoom(key) && !Acceptable(f, policy) ==> refusal == Some(Rejected(FirstFailure(f, policy)))
  {
    if counters.Count(key) >= MaxUploadsPerHour {
      return Some(RateLimited);
    }
    var verdict := ValidateUpload(f, policy);
    if verdict.Invalid? {
      return Some(Rejected(verdict.error));
    }
    return None;
  }

  /**
   * After a successful move: bump the hour's counter, record the stored name with the upload
   * time and the uploader's role in `metadata`, and write that map back to the user's folder.
   */
  method RecordUpload(fs: FileSystem, counters: Counters, key: RateKey, userDir: Path, metadata: MetadataMap,
                      now: nat, uploadName: string, content: string, role: string)
    returns (stored: string, metadataAfter: MetadataMap)
    modifies fs, counters
    ensures stored == StoredName(now, uploadName)
    ensures counters.counts == old(counters.counts)[key := CountIn(old(counters.counts), key) + 1]
    ensures fs.dirs == old(fs.dirs)
    ensures fs.files == old(fs.files)[StoredPath(userDir, now, uploadName) := content]
    ensures metadataAfter == metadata[stored := Encode(Entry(stored, now, role))]
    ensures fs.metadataFiles == old(fs.metadataFiles)[MetadataPath(userDir) := metadataAfter]
    ensures WithinHourlyLimit(old(counters.counts)) && RoomIn(old(counters.counts), key) ==> WithinHourlyLimit(counters.counts)
  {
    stored := StoredName(now, uploadName);
    metadataAfter := metadata[stored := Encode(Entry(stored, now, role))];
    fs.PlaceFile(StoredPath(userDir, now, uploadName), content);
    CountAndWrite(fs, counters, key, userDir, metadataAfter);
  }

  /** The bump of the hour's counter, then the metadata written back. */
  method CountAndWrite(fs: FileSystem, counters: Counters, key: RateKey, userDir: Path, m: MetadataMap)
    modifies fs, counters
    ensures counters.counts == old(counters.counts)[key := CountIn(old(counters.counts), key) + 1]
    ensures fs.dirs == old(fs.dirs) && fs.files == old(fs.files)
    ensures fs.metadataFiles == old(fs.metadataFiles)[MetadataPath(userDir) := m]
    ensures WithinHourlyLimit(old(counters.counts)) && RoomIn(old(counters.counts), key) ==> WithinHourlyLimit(counters.counts)
  {
    counters.Bump(key);
    fs.WriteMetadata(userDir, m);
  }
}

=== FILE: validation.dfy ===
/**
 * The upload validator (`cdm_validate_upload`): a short-circuit chain of checks on an
 * uploaded file — transport status and name, size, extension allow-list, sniffed MIME
 * type, and for zip archives the declared uncompressed size of their entries.
 *
 * The MIME type the content sniffer reports and the entry sizes the zip reader reports
 * are inputs of the model (`sniffedMime`, `zipEntrySizes`); `zipEntrySizes` is `None`
 * when the archive cannot be opened.
 */
module Validation {
  import opened Wrappers
  import opened PhpBuiltins

  /** `UPLOAD_ERR_OK`. */
  const UploadErrOk: int := 0

  const BytesPerMegabyte: nat := 1024 * 1024

  /** The zip-bomb ceiling: 512 MB of declared uncompressed content. */
  const ZipUncompressedLimit: nat := 512 * 1024 * 1024

  /** Defaults used when the options were never saved. */
  const DefaultMaxFileSizeMb: int := 50
  const DefaultAllowedTypes: string := "pdf,doc,docx,xls,xlsx,csv,txt,jpg,jpeg,png,gif,webp,zip"

  /** The fixed MIME allow-list; it does not follow the configurable extension list. */
  const AllowedMimeTypes: seq<string> := [
    "application/pdf",
    "application/msword",
    "application/vnd.openxmlformats-officedocument.wordprocessingml.document",
    "application/vnd.ms-excel",
    "application/vnd.openxmlformats-officedocument.spreadsheetml.sheet",
    "text/plain",
    "text/csv",
    "image/jpeg",
    "image/png",
    "image/gif",
    "image/webp",
    "application/zip",
    "application/x-zip-compressed"
  ]

  /** One element of `$_FILES`, with what the sniffer and the zip reader would report about it. */
  datatype UploadCandidate = UploadCandidate(
    name: string,
    errorCode: int,
    size: nat,
    sniffedMime: string,
    zipEntrySizes: Option<seq<nat>>)

  /** The two settings the validator reads. */
  datatype Policy = Policy(maxFileSizeMb: int, allowedTypes: string)

  /** Why a file is refused; each carries what its message shows. */
  datatype UploadError =
    | TransportFailed
    | TooLarge(maxFileSizeMb: int)
    | TypeNotAllowed(extension: string, allowedTypes: string)
    | MimeNotAllowed(mime: string)
    | ZipTooLarge

  /** `['valid' => true, 'error' => null]` or `['valid' => false, 'error' => message]`. */
  datatype Verdict = Valid | Invalid(error: UploadError)

  predicate Arrived(f: UploadCandidate) {
    Truthy(f.name) && f.errorCode == UploadErrOk
  }

  /** `size / 1024 / 1024 > max` fails; as an exact comparison on bytes. */
  predicate WithinSizeLimit(f: UploadCandidate, p: Policy) {
    f.size <= p.maxFileSizeMb * BytesPerMegabyte
  }

  /** `strtolower(pathinfo($name, PATHINFO_EXTENSION))`: the lower-cased text after the last dot of the basename. */
  function Extension(name: string): (ext: string)
    ensures '.' !in ext && '/' !in ext
  {
    var base := Basename(name);
    if LastIndexOf(base, '.') < 0 then "" else ToLower(AfterLast(base, '.'))
  }

  /**
   * For every name: a basename without a dot has no extension, and otherwise the extension
   * is the lower-cased text after the basename's last dot.
   */
  lemma ExtensionIsTextAfterLastDot(name: string)
    ensures '.' !in Basename(name) ==> Extension(name) == ""
    ensures '.' in Basename(name) ==>
      exists i :: 0 <= i < |Basename(name)| && Basename(name)[i] == '.' && '.' !in Basename(name)[i + 1..]
        && Extension(name) == ToLower(Basename(name)[i + 1..])
  {
    var base := Basename(name);
    LastIndexOfOccurrence(base, '.');
    if '.' in base {
      var i := LastIndexOf(base, '.');
      AfterLastLength(base, '.');
      SuffixFrom(AfterLast(base, '.'), base, i + 1);
    }
  }

  /** `array_map('trim', explode(',', $allowed_types))`. */
  function AllowedExtensions(allowedTypes: string): (list: seq<string>)
    ensures |list| == |Explode(allowedTypes, ',')|
    ensures forall i :: 0 <= i < |list| ==> list[i] == Trim(Explode(allowedTypes, ',')[i])
  {
    var parts := Explode(allowedTypes, ',');
    seq(|parts|, i requires 0 <= i < |parts| => Trim(parts[i]))
  }

  predicate ExtensionAllowed(f: UploadCandidate, p: Policy) {
    Extension(f.name) in AllowedExtensions(p.allowedTypes)
  }

  predicate MimeAllowed(f: UploadCandidate) {
    f.sniffedMime in AllowedMimeTypes
  }

  /** The zip check runs only for the extension `zip` and an archive that opens. */
  predicate ZipInspected(f: UploadCandidate) {
    Extension(f.name) == "zip" && f.zipEntrySizes.Some?
  }

  /** Sum of declared uncompressed entry sizes. */
  function Total(sizes: seq<nat>): nat {
    if sizes == [] then 0 else Total(sizes[..|sizes| - 1]) + sizes[|sizes| - 1]
  }

  predicate ZipWithinLimit(f: UploadCandidate) {
    ZipInspected(f) ==> Total(f.zipEntrySizes.value) <= ZipUncompressedLimit
  }

  /** Every check passes; the validator's order decides only which error is reported. */
  predicate Acceptable(f: UploadCandidate, p: Policy) {
    Arrived(f) && WithinSizeLimit(f, p) && ExtensionAllowed(f, p) && MimeAllowed(f) && ZipWithinLimit(f)
  }

  /** The error a refused file is reported with: the first check, in the validator's order, that fails. */
  function FirstFailure(f: UploadCandidate, p: Policy): (e: UploadError)
    requires !Acceptable(f, p)
    ensures e.TransportFailed? <==> !Arrived(f)
    ensures e.TooLarge? <==> Arrived(f) && !WithinSizeLimit(f, p)
    ensures e.TypeNotAllowed? <==> Arrived(f) && WithinSizeLimit(f, p) && !ExtensionAllowed(f, p)
    ensures e.MimeNotAllowed? <==> Arrived(f) && WithinSizeLimit(f, p) && ExtensionAllowed(f, p) && !MimeAllowed(f)
    ensures e.ZipTooLarge? <==> Arrived(f) && WithinSizeLimit(f, p) && ExtensionAllowed(f, p) && MimeAllowed(f)
    ensures e.TooLarge? ==> e.maxFileSizeMb == p.maxFileSizeMb
    ensures e.TypeNotAllowed? ==> e.extension == Extension(f.name) && e.allowedTypes == p.allowedTypes
    ensures e.MimeNotAllowed? ==> e.mime == f.sniffedMime
  {
    if !Arrived(f) then TransportFailed
    else if !WithinSizeLimit(f, p) then TooLarge(p.maxFileSizeMb)
    else if !ExtensionAllowed(f, p) then TypeNotAllowed(Extension(f.name), p.allowedTypes)
    else if !MimeAllowed(f) then MimeNotAllowed(f.sniffedMime)
    else ZipTooLarge
  }

  /** A longer prefix of the entries never declares less. */
  lemma {:induction false} TotalPrefixMonotone(sizes: seq<nat>, i: nat, j: nat)
    requires i <= j <= |sizes|
    ensures Total(sizes[..i]) <= Total(sizes[..j])
    decreases j - i
  {
    if i < j {
      TotalPrefixMonotone(sizes, i, j - 1);
      assert sizes[..j][..j - 1] == sizes[..j - 1];
    }
  }

  /**
   * The `for` loop over the archive's entries: add each declared size to a running total
   * and stop at the first entry that takes it over the limit.
   */
  method ScanZipEntries(sizes: seq<nat>) returns (withinLimit: bool, visited: nat)
    ensures withinLimit <==> Total(sizes) <= ZipUncompressedLimit
    ensures visited <= |sizes|
    ensures withinLimit ==> visited == |sizes|
    ensures !withinLimit ==> 0 < visited && Total(sizes[..visited]) > ZipUncompressedLimit
    ensures !withinLimit ==> Total(sizes[..visited - 1]) <= ZipUncompressedLimit
  {
    var total := 0;
    var i := 0;
    while i < |sizes|
      invariant 0 <= i <= |sizes|
      invariant total == Total(sizes[..i])
      invariant total <= ZipUncompressedLimit
    {
      TotalStep(sizes, i);
      total := total + sizes[i];
      if total > ZipUncompressedLimit {
        TotalPrefixMonotone(sizes, i + 1, |sizes|);
        assert sizes[..|sizes|] == sizes;
        return false, i + 1;
      }
      i := i + 1;
    }
    assert sizes[..i] == sizes;
    return true, i;
  }

  /** Extending a prefix by one entry adds that entry's size. */
  lemma TotalStep(sizes: seq<nat>, i: nat)
    requires i < |sizes|
    ensures Total(sizes[..i + 1]) == Total(sizes[..i]) + sizes[i]
  {
    assert sizes[..i + 1][..i] == sizes[..i];
  }

  /**
   * `cdm_validate_upload`: accept exactly when every check passes, and on refusal report
   * the first check that failed in the order transport, size, extension, MIME, zip.
   */
  method ValidateUpload(f: UploadCandidate, p: Policy) returns (v: Verdict)
    ensures v.Valid? <==> Acceptable(f, p)
    ensures !Acceptable(f, p) ==> v == Invalid(FirstFailure(f, p))
  {
    if !Truthy(f.name) || f.errorCode != UploadErrOk {
      assert !Arrived(f);
      return Invalid(TransportFailed);
    }
    assert Arrived(f);
    if f.size > p.maxFileSizeMb * BytesPerMegabyte {
      assert !WithinSizeLimit(f, p);
      return Invalid(TooLarge(p.maxFileSizeMb));
    }
    assert WithinSizeLimit(f, p);
    var ext := Extension(f.name);
    var allowed := AllowedExtensions(p.allowedTypes);
    if ext !in allowed {
      assert !ExtensionAllowed(f, p);
      return Invalid(TypeNotAllowed(ext, p.allowedTypes));
    }
    assert ExtensionAllowed(f, p);
    if f.sniffedMime !in AllowedMimeTypes {
      assert !MimeAllowed(f);
      return Invalid(MimeNotAllowed(f.sniffedMime));
    }
    assert MimeAllowed(f);
    var zipOk := CheckZip(f);
    if !zipOk {
      return Invalid(ZipTooLarge);
    }
    return Valid;
  }

  /** The zip-bomb step: only a `zip` that opens is scanned; anything else passes it. */
  method CheckZip(f: UploadCandidate) returns (ok: bool)
    ensures ok <==> ZipWithinLimit(f)
  {
    ok := true;
    if Extension(f.name) == "zip" && f.zipEntrySizes.Some? {
      var visited;
      ok, visited := ScanZipEntries(f.zipEntrySizes.value);
    }
  }

  /** The byte comparison is the megabyte comparison of the source, done in exact arithmetic. */
  lemma SizeTestIsMegabyteTest(size: nat, maxFileSizeMb: int)
    ensures (size as real / 1024.0 / 1024.0 > maxFileSizeMb as real) <==> size > maxFileSizeMb * BytesPerMegabyte
  {
  }

  /** A file of exactly the configured size passes the size check; one byte more fails it. */
  lemma ExactLimitPasses(f: UploadCandidate, p: Policy)
    requires f.size == p.maxFileSizeMb * BytesPerMegabyte
    ensures WithinSizeLimit(f, p)
    ensures !WithinSizeLimit(f.(size := f.size + 1), p)
  {
  }

  /** Only the text after the last dot counts, and case does not: `a.tar.PDF` has extension `pdf`. */
  lemma ExtensionIsLastDotLowered()
    ensures Extension("a.tar.PDF") == "pdf"
  {
    var name := "a.tar.PDF";
    assert name == ['a', '.', 't', 'a', 'r', '.', 'P', 'D', 'F'];
    BasenameOfPlainName(name);
    LastDotOfSample();
    LowerOfSample();
  }

  lemma LastDotOfSample()
    ensures LastIndexOf("a.tar.PDF", '.') == 5 && AfterLast("a.tar.PDF", '.') == "PDF"
  {
    var name := "a.tar.PDF";
    assert name[5] == '.' && name[6] == 'P' && name[7] == 'D' && name[8] == 'F';
    AfterLastLength(name, '.');
    SuffixFrom(AfterLast(name, '.'), name, 6);
    assert name[6..] == "PDF";
  }

  lemma LowerOfSample()
    ensures ToLower("PDF") == "pdf"
  {
    assert LowerChar('P') == 'p' && LowerChar('D') == 'd' && LowerChar('F') == 'f';
  }

  /** Blanks around list entries are ignored: ` doc` in the setting allows `doc`. */
  lemma AllowListEntriesAreTrimmed()
    ensures "doc" in AllowedExtensions("pdf, doc")
  {
    ExplodeOfSample();
    TrimOfSample();
    assert AllowedExtensions("pdf, doc")[1] == "doc";
  }

  lemma ExplodeOfSample()
    ensures Explode("pdf, doc", ',') == ["pdf", " doc"]
  {
    var setting := "pdf, doc";
    assert IndexOf(setting, ',') == 3;
    assert setting[..3] == "pdf" && setting[4..] == " doc";
    assert Explode(" doc", ',') == [" doc"] by {
      assert IndexOf(" doc", ',') == -1;
    }
  }

  lemma TrimOfSample()
    ensures Trim(" doc") == "doc"
  {
    assert " doc"[3] !in TrimCharacters;
    assert RTrim(" doc", TrimCharacters) == " doc";
    assert " doc"[1..] == "doc";
    assert "doc"[0] !in TrimCharacters;
    assert LTrim("doc", TrimCharacters) == "doc";
    assert LTrim(" doc", TrimCharacters) == "doc";
  }
}

=== FILE: wrappers.dfy ===
/** Optional values, used where PHP returns `false` or `null` for "nothing". */
module Wrappers {

  datatype Option<+T> = None | Some(value: T)

}
